=== FILE: README.md ===
# dbsync in Dafny

A model of the server side of dbsync's delta synchronisation
(`sw/dbsync/dbsync.py`), with proofs about it. A client sends the sync point
it last received plus, for each table, the rows it wrote and the rows it
deleted. The server does three things in one transaction:

- it applies the writes and deletions;
- it answers, per table, with the rows and deletions the client has not yet seen;
- it hands out one new sync point, taken from a counter.

Every stored row carries a signed timestamp. A positive value is the time of
the row's last write. A negative value is a tombstone: the row was deleted at
the negated time. A table may also be partitioned by "extra" columns, such as
`user`. The model keys each stored row by its primary-key values plus its
extra values. This stands for a unique constraint on exactly those columns,
which the application must declare when it creates the table (see Left out).
Under that constraint, every read and write of an exchange stays inside the
caller's partition.

The model replaces SQL with an abstract store. Each table maps a key
(primary-key values plus extra values) to an entry (the row's schema columns
plus the signed timestamp). Each table gets the four statement shapes that
`Table.__init__` builds: upsert, mark-deleted, select-changed and
select-deleted-keys. `Table.synchronize` runs them in order. The database
registers tables and runs every table a request names under one clamped sync
point and one counter value. It either commits everything or rolls everything
back.

Modules:

- `Errors`: the failures an exchange can raise, and `Result`.
- `Values`: loosely typed rows and `row_factory`.
- `Table`: a table's contents, its four statement shapes, its exchange, and
  the properties of that exchange.
- `Coordinator`: `Database.__init__`, `Database.add_table` and `Database.synchronize`.
- `Scenarios`: the repository's integration tests `test_basic` and
  `test_complex`, every exchange restated as a lemma about the model.
- `AsWritten`: lines 116 and 78 as they are written. Line 78 is modelled
  with line 116's placeholder taken as corrected.

## Model

| member | source | states |
|---|---|---|
| `Values.RowFactory` | sw/dbsync/dbsync.py:14-16 | The row built from a cursor description and a tuple has exactly the described column names as keys. |
| `Values.RowFactoryLastWins` | sw/dbsync/dbsync.py:16 | When a column name repeats, the dict comprehension keeps the value at its last position; every other name keeps the value at its own position. |
| `Values.FactoryOfFetch` | sw/dbsync/dbsync.py:14-16 | A row read back through `row_factory` from a query selecting some columns equals the stored row restricted to exactly those columns, whatever their order and even when names repeat. |
| `Table.Upsert` | sw/dbsync/dbsync.py:60-66 | Insert or replace. Afterwards the table holds the old keys plus every submitted row's key. Keys that were not written keep their entries. Every written key carries the exchange time. |
| `Table.UpsertLastWriteWins` | sw/dbsync/dbsync.py:42 | Under each written key, the entry is the stored form of the last submitted row with that key, stamped with the exchange time: a replace, not a merge. |
| `Table.MarkDeleted` | sw/dbsync/dbsync.py:67-75 | Mark-deleted only changes timestamps. No key is added or removed, every row's columns stay the same, and exactly the matched keys get the negated exchange time. |
| `Table.SelectChanged` | sw/dbsync/dbsync.py:32-37 | Each row of the changed read has exactly the table's schema columns. |
| `Table.SelectDeletedKeys` | sw/dbsync/dbsync.py:48-49 | Each row of the deleted read has exactly the table's primary-key columns. |
| `Table.ChangedWindowIsLive` | sw/dbsync/dbsync.py:35-36 | For a sync point of at least zero, the condition with bounds (last, current) holds exactly for live rows of the partition written strictly between the two points. |
| `Table.NegatedWindowIsTombstone` | sw/dbsync/dbsync.py:48-49 | The same condition with bounds (-current, -last) holds exactly for tombstones of the partition deleted strictly between the two points. So live rows and tombstones never share a window. |
| `Table.Sync` | sw/dbsync/dbsync.py:51-83 | Among the modelled errors, the exchange fails exactly when the caller lacks an extra column, a modified row lacks a schema column, or a deleted row lacks a primary-key column. It also fails when the table has no schema columns or no primary-key columns, since a read statement then selects an empty column list. On success the table holds the old keys plus the written keys. |
| `Table.WrittenEntries` | sw/dbsync/dbsync.py:60-75 | After an exchange, each key it writes or deletes carries plus or minus the exchange time. Every other entry is exactly the one stored before. |
| `Table.NoSelfEcho` | sw/dbsync/dbsync.py:60-79 | Nothing the exchange wrote or deleted lies in either read window, so the requester's own writes never come back to it. |
| `Table.ModifiedReplyExact` | sw/dbsync/dbsync.py:76-77 | The modified reply is exactly the set of live rows of the caller's partition that were written strictly between the two sync points and not touched by this exchange. Each comes back as its schema columns. |
| `Table.DeletedReplyExact` | sw/dbsync/dbsync.py:78-79 | The deleted reply is exactly the set of tombstones of the caller's partition that were deleted strictly between the two sync points and not touched by this exchange. Each comes back as its primary key only (corrected read, see Findings). |
| `Table.PartitionIsolation` | sw/dbsync/dbsync.py:59-75 | An exchange leaves every entry of another partition unchanged. Any key it adds belongs to the caller's partition. |
| `Table.UpsertKeepsKeysMatched` | sw/dbsync/dbsync.py:39-42 | If every entry is stored under the primary-key values of its own row, the upsert keeps it so: each written row goes under the key its own stored columns give. |
| `Table.SyncKeepsKeysMatched` | sw/dbsync/dbsync.py:60-75 | A successful exchange keeps every entry under the primary-key values of its own row. Mark-deleted changes only timestamps, so it cannot break this. |
| `Table.DeleteAfterModify` | sw/dbsync/dbsync.py:60-75 | The upsert runs before mark-deleted. So a key that one exchange both writes and deletes ends as a tombstone deleted at the exchange time, still holding the submitted row. |
| `Coordinator.NewDatabaseRunsNothing` | sw/dbsync/dbsync.py:117-135 | A newly created database, whose registry is empty, commits exactly the requests that name no table. Any named table is unknown. |
| `Coordinator.AddTable` | sw/dbsync/dbsync.py:123-124 | Registering a table adds or replaces that one name. The table shares the database's extra columns. Other registrations and the extras stay the same. |
| `Coordinator.RunTables` | sw/dbsync/dbsync.py:134-137 | Among the modelled errors, running a request's tables in order fails exactly when some table is unregistered, missing from the store, or unable to run its own exchange (see `Table.Sync`). On success the set of stored tables is unchanged and every named table has a reply. |
| `Coordinator.Synchronize` | sw/dbsync/dbsync.py:126-144 | The exchange is all or nothing. A rollback leaves the store exactly as it was. Among the modelled errors, the exchange commits exactly when every named table can run. A committed response carries the counter value and one reply per named table. |
| `Coordinator.MalformedTableRollsBack` | sw/dbsync/dbsync.py:33-49 | A request naming a registered table with no schema columns or no primary-key columns rolls back with the store unchanged. `add_table` accepts such a table, but the statements built for it select an empty column list (`SELECT  FROM`), which SQLite cannot prepare. |
| `Coordinator.Clamp` | sw/dbsync/dbsync.py:129 | The clamped sync point is `max(0, timestamp)`: 0 for a negative one, and unchanged otherwise. |
| `Coordinator.NegativeTimestampIsEpoch` | sw/dbsync/dbsync.py:129 | A request with a negative sync point has the same outcome as the same request with sync point 0. |
| `Coordinator.UnknownTableRollsBack` | sw/dbsync/dbsync.py:135-141 | A request naming an unregistered table rolls back and leaves the store unchanged, even when tables before it already ran. |
| `Coordinator.RunTablesLeavesOthers` | sw/dbsync/dbsync.py:134-137 | A run leaves every stored table it does not name unchanged. |
| `Coordinator.RanAloneCarries` | sw/dbsync/dbsync.py:134-137 | A later table's outcome does not depend on an earlier, different table having been written first. |
| `Coordinator.RunTablesFirst` | sw/dbsync/dbsync.py:134-137 | When no later table has its name, the first table of a run ends with the contents and reply of its own exchange. |
| `Coordinator.RunTablesPerTable` | sw/dbsync/dbsync.py:134-137 | When table names are distinct, each named table ends with the contents and reply of its own exchange against the store as it was before the run. |
| `Coordinator.SynchronizePerTable` | sw/dbsync/dbsync.py:129-137 | Every table of one exchange runs with the same clamped sync point and the same counter value, and the response carries that value. |
| `Coordinator.ExchangeReplyExact` | sw/dbsync/dbsync.py:126-144 | End to end, for each named table the committed reply is exactly the changes and deletions the requester is missing between its clamped sync point and the counter value. |
| `Scenarios.WriteItem` | tests/integration/test_database.py:52-78 | Writing an item stores exactly that entry under its key: the item's columns, stamped with the counter value. Any earlier entry under the key is replaced. |
| `Scenarios.ItemExchange` | tests/integration/test_database.py:45-50 | On the item table, any readable request commits with the counter value, and its reply is what the requester is missing. |
| `Scenarios.BasicAddFirst` | tests/integration/test_database.py:51-64 | Client A adds item 1 at counter 1 and hears nothing. |
| `Scenarios.BasicAddSecond` | tests/integration/test_database.py:65-78 | Client B, never synchronized, adds item 2 at counter 2 and hears of item 1. |
| `Scenarios.BasicDelete` | tests/integration/test_database.py:79-92 | Client A, at sync point 1, deletes item 1 and hears of item 2. Item 1 becomes a tombstone at -3. |
| `Scenarios.BasicHearDeletion` | tests/integration/test_database.py:93-111 | Client B, at sync point 2, hears of the deletion of item 1 as `{id: 1}`. The store ends as `(1, "Item 1", -3), (2, "Item 2", 2)`. |
| `Scenarios.ForumExchange` | tests/integration/test_database.py:113-133 | With extra column `user`, a readable request for both forum tables commits, and each table gets the outcome of its own exchange. |
| `Scenarios.ForumReply` | tests/integration/test_database.py:113-133 | On the forum tables, each table's reply is what that user is missing within their own partition. |
| `Scenarios.ForumAddFirst` | tests/integration/test_database.py:134-157 | User 1's client A, never synchronized, adds thread 1 and post 1 at counter 1. It hears nothing back, and both rows are stored in user 1's partition. |
| `Scenarios.ForumAddSecondUser` | tests/integration/test_database.py:158-181 | User 2's client A adds its own thread 1 and post 1 at counter 2. It hears nothing of user 1's rows, and both users' rows are stored side by side. |
| `Scenarios.ForumEditPost` | tests/integration/test_database.py:182-208 | User 1's client A, at sync point 1, replaces post 1 with its edit and adds post 2 at counter 3. It hears nothing back; user 2's post 1 is unchanged. |
| `Scenarios.PartitionedDelete` | tests/integration/test_database.py:209-244 | User 1's second client deletes thread 1 at counter 4 and hears of user 1's two posts only. User 1's thread becomes a tombstone at -4 while user 2's stays live. |
| `AsWritten.AsWrittenPlaceholderIsStyleName` | sw/dbsync/dbsync.py:110-116 | For every parameter style the library accepts, the database as written keeps the style's name (`qmark`, `format`), not the driver's placeholder. The corrected database keeps the placeholder (`?`, `%s`). |
| `AsWritten.SynchronizeAsWritten` | sw/dbsync/dbsync.py:126-141 | Over a database whose statements hold a text that is not a placeholder, the exchange commits exactly the requests that name no table. Every other request rolls back with the store unchanged. With a placeholder it is the corrected exchange. |
| `AsWritten.AsWrittenCommitsNothing` | sw/dbsync/dbsync.py:116-141 | A database built as written, for any accepted style and with any tables registered, commits exactly the requests that name no table. |
| `AsWritten.AsWrittenFirstExchangeFails` | sw/dbsync/dbsync.py:34-42 | On the database as written, the first exchange of `test_basic` (adding item 1) rolls back: the upsert names a column `qmark` that SQLite cannot find. |
| `AsWritten.SyncAsWritten` | sw/dbsync/dbsync.py:78-79 | With line 116's placeholder corrected and line 78 as written, the deleted reply is always empty. The exchange succeeds only on a table with exactly one primary-key column, because the UPDATE's placeholders match the parameters only then. |
| `AsWritten.AsWrittenMissesDeletion` | sw/dbsync/dbsync.py:78 | In the fourth basic exchange, the as-written reply omits the deletion of item 1, while the corrected exchange reports `{id: 1}`. |
| `AsWritten.AsWrittenDeletesKeyZero` | sw/dbsync/dbsync.py:78 | As written, a never-synchronized client that submits nothing turns the live item with id 0 into a tombstone. The corrected exchange leaves it live. |

## Left out

- `graverob`: the tests call it, but `dbsync.py` does not define it, so there is nothing to model.
- `Table.schema_definition` and `Database.schema` (`dbsync.py:85-99`, `146-189`): these build JSON Schema documents. They do not affect the store or the exchange.
- `sw/dbsync/dbapi.py`: DB-API protocol types only. Cursors, connections, `commit`, `rollback` and `close` become the all-or-nothing `Outcome`.
- The SQL text (`dbsync.py:33-49`): the model implements what each statement does, not its text. The one exception is a statement built with an empty column list. The model refuses it as `MalformedStatement`, after the `KeyError` checks that run before it. `Coordinator.Synchronize` assumes every statement is written with the driver's placeholder, which line 116 as written does not provide (see Findings). `AsWritten.SynchronizeAsWritten` models the exchange with the style's name in the text.
- The table's unique key: the model keys each table by its primary-key columns plus the extra columns. `dbsync.py` creates no tables. Its `INSERT OR REPLACE` (line 42) replaces a row only if the application's schema declares a primary key or UNIQUE constraint on exactly those columns, as the test schemas do (`tests/integration/test_database.py:47`, `114-118`). With a key that leaves out `user`, one user's write replaces another user's row. With no key, as in `tests/integration/test_database.py:32`, every write adds another row. `Table.Upsert`, `Table.UpsertLastWriteWins` and `Table.PartitionIsolation` hold only under that constraint.
- Storage-level failures other than a missing table: `Database.synchronize` rolls back on any exception (line 139). The model does not represent the following failures:
  - the SQL table lacks a schema, `timestamp` or extra column;
  - a NOT NULL, CHECK or UNIQUE constraint is violated;
  - a value overflows the driver's 64-bit integers;
  - a request's table lacks its `modified` or `deleted` entry (a `KeyError` at lines 64 and 73).

  Each of these rolls back the whole exchange, as every modelled error does. The model's "fails exactly when" statements hold among the modelled errors only.
- `AsWritten.SyncAsWritten`: fetching after the UPDATE gives no rows, as with sqlite3. Section "Cursor Objects" of PEP 249 lets `fetchall` raise there instead, as psycopg2 does; such a driver rolls the exchange back.
- `AsWritten.SynchronizeAsWritten`: reports the error SQLite gives. With a `format` driver such as psycopg2, an empty `executemany` runs nothing, and the error comes from a later statement, or from Python's `%` formatting of a text with no `%s`. The exchange still rolls back.
- The default wall-clock counter (`dbsync.py:107`): the counter value is an argument of `Coordinator.Synchronize`.
- Concurrency and transaction isolation between exchanges: each exchange is modelled as one atomic step.
- Row order in replies: SQL gives none, so replies are sets.
- SQL NULL semantics: `Null` equals `Null` in keys and comparisons. The model does not treat NULL as distinct in uniqueness or `=`.
- The SQL types of columns: every value is `Null`, an integer or a text.
- `Coordinator.RunTables`: when several errors apply to one table, the model reports the unregistered or missing table before a missing extra or column. Python raises the `KeyError` for extras and modified rows before any SQL error. The model checks the same conditions and rolls back either way; only the error reported can differ.
- `Table.MarkDeleted`: this matches any stored row with the key, including one that is already a tombstone, which it re-stamps with the new deletion time. The model follows the code here.
- The repository's wider design properties (graveyard clean-up, completeness across many exchanges) are not stated. The model proves the per-exchange reply exactly instead.

## Findings

| source | as written | input that shows it | evidently intended | confidence | as-written member | corrected member |
|---|---|---|---|---|---|---|
| sw/dbsync/dbsync.py:116 | Stores the parameter style's name (`self._param = paramstyle`) instead of its placeholder `paramstyles[paramstyle]`. So the statements built at lines 34-49 contain `qmark` where `?` belongs, e.g. `VALUES(qmark,qmark,qmark)` and `qmark<timestamp`. | `Database()` with the sqlite3 driver (paramstyle `qmark`). In the first exchange of `test_basic`, SQLite refuses to prepare the upsert `INSERT OR REPLACE INTO item(id,name,timestamp) VALUES(qmark,qmark,qmark)` ("no such column: qmark"). This happens before any parameter is bound, so the exchange rolls back. | Store `paramstyles[paramstyle]` | high, not executed | `AsWritten.NewDatabaseAsWritten`, `AsWritten.AsWrittenPlaceholderIsStyleName`, `AsWritten.SynchronizeAsWritten`, `AsWritten.AsWrittenFirstExchangeFails` | `Coordinator.NewDatabase` |
| sw/dbsync/dbsync.py:78 | With line 116 corrected, the deleted read runs the mark-deleted UPDATE with the parameters `[-current, -last] + extras`. The primary-key SELECT built at lines 48-49 is never run. With the sqlite3 driver the tests use, fetching after an UPDATE gives no rows, so the deleted reply is always empty. The UPDATE also re-stamps the row whose key is `-last`. Section "Cursor Objects" of PEP 249 lets `fetchall` raise instead, and psycopg2 (paramstyle `format`) raises "no results to fetch", so with that driver every exchange that names a table rolls back. | The fourth exchange of `test_basic` (sync point 2, counter 4) should answer `deleted: [{id: 1}]` but gets `[]`. A live item with id 0 becomes a tombstone when a client with sync point 0 synchronizes. A table with two primary-key columns raises a parameter-count error. | Run the primary-key SELECT with `[-current, -last] + extras` | high, not executed | `AsWritten.SyncAsWritten`, `AsWritten.AsWrittenMissesDeletion` | `Table.Sync`, `Table.DeletedReplyExact` |

=== FILE: as_written.dfy ===
/** Two lines of sw/dbsync/dbsync.py as they are written, beside the
    corrected behaviour the rest of the model uses.

    Line 116 keeps the name of the driver's parameter style (`qmark`) where
    the statements need its placeholder (`?`); `NewDatabaseAsWritten` models
    that, and `Coordinator.NewDatabase` the corrected line.
    `SynchronizeAsWritten` is the exchange over such a database: every
    request that names a table rolls back.

    Line 78 runs the UPDATE shape of mark-deleted with the parameters of the
    primary-key SELECT, instead of the SELECT shape, which nothing runs.
    `Table.Sync` models the SELECT the tests expect; `SyncAsWritten` models
    line 78 as written, with line 116's placeholder taken as corrected (with
    the style name in the statements, every statement fails before line 78
    is reached). */
module AsWritten {
  import opened Errors
  import opened Values
  import opened Table
  import Coordinator
  import Scenarios

  /** `Database.__init__` with line 116 as written: it checks the driver's
      parameter style like `Coordinator.NewDatabase`, then keeps the style's
      name, not its placeholder, as the text every statement is written with. */
  function NewDatabaseAsWritten(extras: seq<Column>, paramstyle: string): (r: Result<Coordinator.Database>)
    ensures r.Failure? <==> paramstyle !in Coordinator.Placeholders
    ensures r.Success? ==> r.value.extras == extras && r.value.tables == map[] && r.value.param == paramstyle
  {
    if paramstyle !in Coordinator.Placeholders then Failure(UnsupportedParamStyle(paramstyle))
    else Success(Coordinator.Database(extras, paramstyle, map[]))
  }

  /** For every style both versions accept, the as-written database writes its
      statements with a text that is not the driver's placeholder (`qmark`
      where `?` belongs), while the corrected one uses the placeholder. */
  lemma AsWrittenPlaceholderIsStyleName(extras: seq<Column>, paramstyle: string)
    requires paramstyle in Coordinator.Placeholders
    ensures NewDatabaseAsWritten(extras, paramstyle).value.param != Coordinator.Placeholders[paramstyle]
    ensures Coordinator.NewDatabase(extras, paramstyle).value.param == Coordinator.Placeholders[paramstyle]
  {
    assert paramstyle == "qmark" || paramstyle == "format";
  }

  /** `Database.synchronize` over a database whose statements may be written
      with a text that is not a placeholder. With a placeholder it is the
      corrected exchange. Otherwise the first table of a non-empty request
      fails: after the registry lookup and the reads of the caller's extras
      and the modified rows, which raise first, the upsert statement names
      the style as a column (`VALUES(qmark,qmark,qmark)`) and SQLite refuses
      to prepare it, even when there are no rows to write. */
  function SynchronizeAsWritten(db: Coordinator.Database, store: Coordinator.Store, req: Coordinator.Request, ctx: Row, counter: int): (r: Coordinator.Outcome)
    ensures r.RolledBack? ==> r.store == store
    ensures db.param in Coordinator.Placeholders.Values ==> r == Coordinator.Synchronize(db, store, req, ctx, counter)
    ensures db.param !in Coordinator.Placeholders.Values ==> (r.Committed? <==> |req.tables| == 0)
  {
    if db.param in Coordinator.Placeholders.Values || |req.tables| == 0 then Coordinator.Synchronize(db, store, req, ctx, counter)
    else
      var name := req.tables[0].0;
      var delta := req.tables[0].1;
      if name !in db.tables then Coordinator.RolledBack(store, UnknownTable(name))
      else if name !in store then Coordinator.RolledBack(store, NoSuchTable(name))
      else if !HasColumns(ctx, db.tables[name].extras) then Coordinator.RolledBack(store, MissingExtra)
      else if exists i | 0 <= i < |delta.modified| :: !HasColumns(delta.modified[i], db.tables[name].columns) then
        Coordinator.RolledBack(store, MissingColumn)
      else Coordinator.RolledBack(store, NoSuchColumn(db.param))
  }

  /** As written, a database for any accepted style, with any tables
      registered, commits exactly the requests that name no table: no
      exchange can write or read anything. */
  lemma AsWrittenCommitsNothing(extras: seq<Column>, paramstyle: string, names: seq<(string, seq<Column>, seq<Column>)>,
                                store: Coordinator.Store, req: Coordinator.Request, ctx: Row, counter: int)
    requires NewDatabaseAsWritten(extras, paramstyle).Success?
    ensures var db := Registered(NewDatabaseAsWritten(extras, paramstyle).value, names);
            SynchronizeAsWritten(db, store, req, ctx, counter).Committed? <==> |req.tables| == 0
  {
    var db := Registered(NewDatabaseAsWritten(extras, paramstyle).value, names);
    assert db.param == paramstyle;
    assert paramstyle == "qmark" || paramstyle == "format";
    PlaceholderTexts();
  }

  /** The texts that are placeholders: `?` and `%s`, and no style's name. */
  lemma PlaceholderTexts()
    ensures Coordinator.Placeholders.Values == {"?", "%s"}
  {
    var m := Coordinator.Placeholders;
    assert m.Keys == {"qmark", "format"};
    forall v | v in m.Values ensures v == "?" || v == "%s" {
      var style :| style in m && m[style] == v;
    }
    assert m["qmark"] in m.Values && m["format"] in m.Values;
  }

  /** The database after registering each (name, primary key, columns) triple in turn. */
  function Registered(db: Coordinator.Database, names: seq<(string, seq<Column>, seq<Column>)>): (r: Coordinator.Database)
    ensures r.param == db.param && r.extras == db.extras
    decreases |names|
  {
    if |names| == 0 then db
    else Registered(Coordinator.AddTable(db, names[0].0, names[0].1, names[0].2), names[1..])
  }

  /** The first exchange of the basic scenario, on the database as written:
      adding item 1 rolls back, because the upsert names a column `qmark`. */
  lemma AsWrittenFirstExchangeFails()
    ensures var db := Coordinator.AddTable(NewDatabaseAsWritten([], "qmark").value, "item", ["id"], ["id", "name"]);
            var out := SynchronizeAsWritten(db, Scenarios.ItemStore(map[]), Scenarios.ItemRequest(0, Delta([Scenarios.Item(1, "Item 1")], [])), map[], 1);
            out == Coordinator.RolledBack(Scenarios.ItemStore(map[]), NoSuchColumn("qmark"))
  {
    var db := Coordinator.AddTable(NewDatabaseAsWritten([], "qmark").value, "item", ["id"], ["id", "name"]);
    PlaceholderTexts();
    assert db.tables["item"] == Scenarios.ItemDef();
    assert HasColumns(Scenarios.Item(1, "Item 1"), ["id", "name"]);
  }

  /** The per-table exchange with line 78 as written (and the placeholder of
      line 116 corrected). Upsert, mark-deleted and
      the changed read are those of `Sync`. The UPDATE then gets the parameters
      `[-current, -last] + extras`; it has one placeholder for the timestamp,
      one per primary-key column and one per extra column, so the parameters
      fit only a table with exactly one primary-key column, and the driver
      raises otherwise. When they fit, it sets the timestamp of the row of
      the caller's partition whose key is `-last` to `-current`, and fetching
      the result of an UPDATE yields no rows, as the sqlite3 driver the tests
      use does. A table that `Sync` refuses fails here with the same error. */
  function SyncAsWritten(t: Contents, def: TableDef, ctx: Row, last: int, current: int, delta: Delta): (r: Result<Synced>)
    ensures r.Success? ==> r.value.reply.deleted == {}
    ensures r.Success? <==> Readable(def, ctx, delta) && |def.primary| == 1
  {
    match Sync(t, def, ctx, last, current, delta)
    case Failure(e) => Failure(e)
    case Success(synced) =>
      if |def.primary| != 1 then Failure(ParameterCount)
      else
        var stray := Key([Int(-last)], ExtraValues(def, ctx));
        Success(Synced(MarkDeleted(synced.contents, [stray], current), Reply(synced.reply.modified, {})))
  }

  /** The fourth exchange of the basic scenario: a client last synchronized at
      2 should hear that item 1 was deleted at 3. As written it hears nothing,
      while the corrected exchange reports the key of item 1. */
  lemma AsWrittenMissesDeletion()
    ensures SyncAsWritten(Scenarios.Basic3(), Scenarios.ItemDef(), map[], 2, 4, Delta([], [])).value.reply.deleted == {}
    ensures Sync(Scenarios.Basic3(), Scenarios.ItemDef(), map[], 2, 4, Delta([], [])).value.reply.deleted == {map["id" := Int(1)]}
  {
    Scenarios.HearDeletionMisses();
    DeletedReplyExact(Scenarios.Basic3(), Scenarios.ItemDef(), map[], 2, 4, Delta([], []));
  }

  /** As written, a client that has never synchronized (last sync point 0)
      and submits nothing turns the live item with id 0 into a tombstone;
      the corrected exchange leaves it live. */
  lemma AsWrittenDeletesKeyZero()
    ensures var t := map[Scenarios.ItemKey(0) := Entry(Scenarios.Item(0, "Item 0"), 1)];
            && IsTombstone(SyncAsWritten(t, Scenarios.ItemDef(), map[], 0, 2, Delta([], [])).value.contents[Scenarios.ItemKey(0)])
            && IsLive(Sync(t, Scenarios.ItemDef(), map[], 0, 2, Delta([], [])).value.contents[Scenarios.ItemKey(0)])
  {
    var t := map[Scenarios.ItemKey(0) := Entry(Scenarios.Item(0, "Item 0"), 1)];
    var def := Scenarios.ItemDef();
    assert ExtraValues(def, map[]) == [];
    assert Readable(def, map[], Delta([], []));
  }
}

=== FILE: coordinator.dfy ===
/** The database: the registry of synchronized tables and the exchange that
    runs every table a request names under one timestamp, all or nothing. */
module Coordinator {
  import opened Errors
  import opened Values
  import opened Table

  /** The registered tables, by name, the extra columns they all share, and
      the placeholder the statements are written with. */
  datatype Database = Database(extras: seq<Column>, param: string, tables: map<string, TableDef>)

  /** The store: the contents of each table, by name. */
  type Store = map<string, Contents>

  /** A request carries the requester's last sync point and, per table in
      request order, the rows it wrote and deleted; a response carries the new
      sync point and, per table, the reply. */
  datatype Request = Request(timestamp: int, tables: seq<(string, Delta)>)
  datatype Response = Response(timestamp: int, tables: map<string, Reply>)

  /** An exchange either commits its writes and answers, or rolls back and
      leaves the store as it found it. */
  datatype Outcome = Committed(store: Store, response: Response) | RolledBack(store: Store, error: Error)

  /** What running the request's tables has produced so far. */
  datatype Applied = Applied(store: Store, replies: map<string, Reply>)

  /** The placeholder each supported driver parameter style uses in a statement. */
  const Placeholders: map<string, string> := map["qmark" := "?", "format" := "%s"]

  /** A database with no tables registered yet, for a driver whose parameter
      style is `paramstyle`. An unsupported style is refused; otherwise the
      statements use that style's placeholder. An omitted list of extra
      columns is the empty one. */
  function NewDatabase(extras: seq<Column>, paramstyle: string): (r: Result<Database>)
    ensures r.Failure? <==> paramstyle !in Placeholders
    ensures r.Failure? ==> r.error == UnsupportedParamStyle(paramstyle)
    ensures r.Success? ==> r.value.extras == extras && r.value.tables == map[]
    ensures r.Success? ==> r.value.param == Placeholders[paramstyle]
  {
    if paramstyle !in Placeholders then Failure(UnsupportedParamStyle(paramstyle))
    else Success(Database(extras, Placeholders[paramstyle], map[]))
  }

  /** A database with no tables registered commits exactly the requests that
      name no table: any named table is unknown. */
  lemma NewDatabaseRunsNothing(extras: seq<Column>, paramstyle: string, store: Store, req: Request, ctx: Row, counter: int)
    requires NewDatabase(extras, paramstyle).Success?
    ensures Synchronize(NewDatabase(extras, paramstyle).value, store, req, ctx, counter).Committed? <==> |req.tables| == 0
  {
    var db := NewDatabase(extras, paramstyle).value;
    if |req.tables| > 0 {
      assert !Runnable(db, store.Keys, ctx, req.tables[0]);
    }
  }

  /** Registers a table, replacing any earlier registration under the same
      name; the table shares the database's extra columns. */
  function AddTable(db: Database, name: string, primary: seq<Column>, columns: seq<Column>): (r: Database)
    ensures r.extras == db.extras && r.param == db.param
    ensures r.tables.Keys == db.tables.Keys + {name}
    ensures r.tables[name] == TableDef(name, primary, columns, db.extras)
    ensures forall n | n in db.tables && n != name :: r.tables[n] == db.tables[n]
  {
    db.(tables := db.tables[name := TableDef(name, primary, columns, db.extras)])
  }

  /** The table names a request lists. */
  function Names(tables: seq<(string, Delta)>): set<string> {
    set i | 0 <= i < |tables| :: tables[i].0
  }

  /** True iff no table name occurs twice, as in a request read from a mapping. */
  predicate DistinctNames(tables: seq<(string, Delta)>) {
    forall i, j | 0 <= i < j < |tables| :: tables[i].0 != tables[j].0
  }

  /** True iff one table of a request can run against a store holding the
      tables `stored`: its name is registered, the store holds the table, its
      statements are valid and its rows and the caller context are readable. */
  predicate Runnable(db: Database, stored: set<string>, ctx: Row, entry: (string, Delta)) {
    entry.0 in db.tables && entry.0 in stored && Readable(db.tables[entry.0], ctx, entry.1)
  }

  /** True iff every table of a request can run. */
  predicate AllRunnable(db: Database, stored: set<string>, ctx: Row, tables: seq<(string, Delta)>) {
    forall i | 0 <= i < |tables| :: Runnable(db, stored, ctx, tables[i])
  }

  lemma NamesSplit(tables: seq<(string, Delta)>)
    requires |tables| > 0
    ensures Names(tables) == {tables[0].0} + Names(tables[1..])
    ensures forall db, stored, ctx :: AllRunnable(db, stored, ctx, tables) <==> Runnable(db, stored, ctx, tables[0]) && AllRunnable(db, stored, ctx, tables[1..])
  {
    assert forall i | 0 < i < |tables| :: tables[i] == tables[1..][i - 1];
  }

  /** Runs every listed table in order, each against the store as the tables
      before it left it; the first failure ends the run. */
  function RunTables(db: Database, store: Store, tables: seq<(string, Delta)>, ctx: Row, last: int, current: int): (r: Result<Applied>)
    ensures r.Failure? <==> !AllRunnable(db, store.Keys, ctx, tables)
    ensures r.Success? ==> r.value.store.Keys == store.Keys && r.value.replies.Keys == Names(tables)
    decreases |tables|
  {
    if |tables| == 0 then Success(Applied(store, map[]))
    else
      var name := tables[0].0;
      if name !in db.tables then Failure(UnknownTable(name))
      else if name !in store then Failure(NoSuchTable(name))
      else
        match Sync(store[name], db.tables[name], ctx, last, current, tables[0].1)
        case Failure(e) => Failure(e)
        case Success(synced) =>
          NamesSplit(tables);
          match RunTables(db, store[name := synced.contents], tables[1..], ctx, last, current)
          case Failure(e) => Failure(e)
          case Success(rest) => Success(Applied(rest.store, map[name := synced.reply] + rest.replies))
  }

  /** One exchange: clamp the requester's sync point to at least zero, take
      the single counter value `counter` as the new sync point, and run every
      table the request names; any failure rolls every table back. */
  function Synchronize(db: Database, store: Store, req: Request, ctx: Row, counter: int): (r: Outcome)
    ensures r.RolledBack? ==> r.store == store
    ensures r.Committed? <==> AllRunnable(db, store.Keys, ctx, req.tables)
    ensures r.Committed? ==> r.store.Keys == store.Keys
    ensures r.Committed? ==> r.response.timestamp == counter && r.response.tables.Keys == Names(req.tables)
  {
    match RunTables(db, store, req.tables, ctx, Clamp(req.timestamp), counter)
    case Failure(e) => RolledBack(store, e)
    case Success(applied) => Committed(applied.store, Response(counter, applied.replies))
  }

  /** The requester's sync point after clamping. */
  function Clamp(timestamp: int): (last: int)
    ensures last >= 0 && (timestamp >= 0 ==> last == timestamp)
    ensures timestamp < 0 ==> last == 0
  {
    if timestamp < 0 then 0 else timestamp
  }

  /** A negative sync point is treated as the beginning of time. */
  lemma NegativeTimestampIsEpoch(db: Database, store: Store, req: Request, ctx: Row, counter: int)
    requires req.timestamp < 0
    ensures Synchronize(db, store, req, ctx, counter) == Synchronize(db, store, req.(timestamp := 0), ctx, counter)
  {
  }

  /** A request naming an unregistered table rolls back with the store unchanged. */
  lemma UnknownTableRollsBack(db: Database, store: Store, req: Request, ctx: Row, counter: int, i: int)
    requires 0 <= i < |req.tables| && req.tables[i].0 !in db.tables
    ensures Synchronize(db, store, req, ctx, counter).RolledBack?
    ensures Synchronize(db, store, req, ctx, counter).store == store
  {
    assert !Runnable(db, store.Keys, ctx, req.tables[i]);
  }

  /** A request naming a registered table that has no schema columns or no
      primary-key columns rolls back with the store unchanged: one of the
      table's statements selects an empty column list. */
  lemma MalformedTableRollsBack(db: Database, store: Store, req: Request, ctx: Row, counter: int, i: int)
    requires 0 <= i < |req.tables| && req.tables[i].0 in db.tables
    requires |db.tables[req.tables[i].0].columns| == 0 || |db.tables[req.tables[i].0].primary| == 0
    ensures Synchronize(db, store, req, ctx, counter).RolledBack?
    ensures Synchronize(db, store, req, ctx, counter).store == store
  {
    assert !Runnable(db, store.Keys, ctx, req.tables[i]);
  }

  /** One step of a successful run: the first table ran against the store,
      then the rest ran against the store it left. */
  lemma RunTablesStep(db: Database, store: Store, tables: seq<(string, Delta)>, ctx: Row, last: int, current: int)
    requires |tables| > 0 && RunTables(db, store, tables, ctx, last, current).Success?
    ensures var name := tables[0].0;
            && name in db.tables && name in store
            && var first := Sync(store[name], db.tables[name], ctx, last, current, tables[0].1);
               && first.Success?
               && var rest := RunTables(db, store[name := first.value.contents], tables[1..], ctx, last, current);
                  && rest.Success?
                  && RunTables(db, store, tables, ctx, last, current).value
                     == Applied(rest.value.store, map[name := first.value.reply] + rest.value.replies)
  {
  }

  /** A run leaves every table it does not name as it was. */
  lemma {:induction false} RunTablesLeavesOthers(db: Database, store: Store, tables: seq<(string, Delta)>, ctx: Row, last: int, current: int, n: string)
    requires RunTables(db, store, tables, ctx, last, current).Success?
    requires n in store && n !in Names(tables)
    ensures RunTables(db, store, tables, ctx, last, current).value.store[n] == store[n]
    decreases |tables|
  {
    if |tables| > 0 {
      RunTablesStep(db, store, tables, ctx, last, current);
      NamesSplit(tables);
      var name := tables[0].0;
      var synced := Sync(store[name], db.tables[name], ctx, last, current, tables[0].1).value;
      RunTablesLeavesOthers(db, store[name := synced.contents], tables[1..], ctx, last, current, n);
    }
  }

  /** True iff `applied` holds, for the table `entry` names, the contents and
      reply of that table's own exchange against `store`. */
  predicate RanAlone(db: Database, store: Store, applied: Applied, ctx: Row, last: int, current: int, entry: (string, Delta)) {
    && entry.0 in store && entry.0 in db.tables && entry.0 in applied.store && entry.0 in applied.replies
    && var r := Sync(store[entry.0], db.tables[entry.0], ctx, last, current, entry.1);
       && r.Success?
       && applied.store[entry.0] == r.value.contents
       && applied.replies[entry.0] == r.value.reply
  }

  /** What a later table of a run produced is unaffected by an earlier,
      different table having been written first. */
  lemma RanAloneCarries(db: Database, store: Store, name: string, synced: Synced, rest: Applied,
                        ctx: Row, last: int, current: int, entry: (string, Delta))
    requires name in store && entry.0 != name
    requires RanAlone(db, store[name := synced.contents], rest, ctx, last, current, entry)
    ensures RanAlone(db, store, Applied(rest.store, map[name := synced.reply] + rest.replies), ctx, last, current, entry)
  {
    assert store[name := synced.contents][entry.0] == store[entry.0];
  }

  /** The first table of a run, when no later table has its name, ends with
      the contents and reply of its own exchange. */
  lemma RunTablesFirst(db: Database, store: Store, tables: seq<(string, Delta)>, ctx: Row, last: int, current: int)
    requires |tables| > 0 && tables[0].0 !in Names(tables[1..])
    requires RunTables(db, store, tables, ctx, last, current).Success?
    ensures RanAlone(db, store, RunTables(db, store, tables, ctx, last, current).value, ctx, last, current, tables[0])
  {
    RunTablesStep(db, store, tables, ctx, last, current);
    var name := tables[0].0;
    var synced := Sync(store[name], db.tables[name], ctx, last, current, tables[0].1).value;
    RunTablesLeavesOthers(db, store[name := synced.contents], tables[1..], ctx, last, current, name);
  }

  /** When every table name occurs once, the reply and new contents of the
      `i`-th table are those of its own exchange against the store as it was
      before the run, with the run's bounds. */
  lemma {:induction false} RunTablesPerTable(db: Database, store: Store, tables: seq<(string, Delta)>, ctx: Row, last: int, current: int, i: int)
    requires DistinctNames(tables)
    requires RunTables(db, store, tables, ctx, last, current).Success?
    requires 0 <= i < |tables|
    ensures RanAlone(db, store, RunTables(db, store, tables, ctx, last, current).value, ctx, last, current, tables[i])
    decreases |tables|
  {
    var rest := tables[1..];
    assert forall j | 0 <= j < |rest| :: rest[j] == tables[j + 1];
    if i == 0 {
      RunTablesFirst(db, store, tables, ctx, last, current);
    } else {
      RunTablesStep(db, store, tables, ctx, last, current);
      var name := tables[0].0;
      var synced := Sync(store[name], db.tables[name], ctx, last, current, tables[0].1).value;
      var next := store[name := synced.contents];
      RunTablesPerTable(db, next, rest, ctx, last, current, i - 1);
      RanAloneCarries(db, store, name, synced, RunTables(db, next, rest, ctx, last, current).value, ctx, last, current, rest[i - 1]);
    }
  }

  /** The exchange runs every named table with the one clamped sync point and
      the one counter value; its response timestamp is that counter value. */
  lemma SynchronizePerTable(db: Database, store: Store, req: Request, ctx: Row, counter: int, i: int)
    requires DistinctNames(req.tables)
    requires Synchronize(db, store, req, ctx, counter).Committed?
    requires 0 <= i < |req.tables|
    ensures var out := Synchronize(db, store, req, ctx, counter);
            && out.response.timestamp == counter
            && RanAlone(db, store, Applied(out.store, out.response.tables), ctx, Clamp(req.timestamp), counter, req.tables[i])
  {
    RunTablesPerTable(db, store, req.tables, ctx, Clamp(req.timestamp), counter, i);
  }

  /** End to end: for each named table, a committed exchange answers exactly
      the live rows and the tombstones of the requester's partition that
      changed strictly between its clamped sync point and the counter value,
      leaving out the requester's own writes. */
  lemma ExchangeReplyExact(db: Database, store: Store, req: Request, ctx: Row, counter: int, i: int)
    requires DistinctNames(req.tables)
    requires Synchronize(db, store, req, ctx, counter).Committed?
    requires 0 <= i < |req.tables|
    ensures var reply := Synchronize(db, store, req, ctx, counter).response.tables[req.tables[i].0];
            var name := req.tables[i].0;
            var def := db.tables[name];
            && reply.modified == MissedChanges(store[name], def, ExtraValues(def, ctx), Clamp(req.timestamp), counter, req.tables[i].1)
            && reply.deleted == MissedDeletions(store[name], def, ExtraValues(def, ctx), Clamp(req.timestamp), counter, req.tables[i].1)
  {
    SynchronizePerTable(db, store, req, ctx, counter, i);
    var name := req.tables[i].0;
    ModifiedReplyExact(store[name], db.tables[name], ctx, Clamp(req.timestamp), counter, req.tables[i].1);
    DeletedReplyExact(store[name], db.tables[name], ctx, Clamp(req.timestamp), counter, req.tables[i].1);
  }
}

=== FILE: errors.dfy ===
/** The exceptions a synchronization exchange can raise, and a Result type for
    the operations that can raise them. */
module Errors {

  datatype Error =
    | UnsupportedParamStyle(style: string)  // the database driver uses a placeholder style the library cannot write
    | UnknownTable(name: string)   // the request names a table that was never registered
    | NoSuchTable(name: string)    // the store holds no table of a registered name
    | MissingExtra                 // the caller context lacks a value for an extra column
    | MissingColumn                // a submitted row lacks a column the operation reads
    | ParameterCount               // a statement got more or fewer parameters than it has placeholders
    | NoSuchColumn(name: string)   // a statement names a column no table has, so it cannot be prepared
    | MalformedStatement           // a statement built with an empty column list is not valid SQL

  datatype Result<+T> = Success(value: T) | Failure(error: Error)
}

=== FILE: scenarios.dfy ===
/** The integration scenarios of the repository's tests, stated as lemmas
    about the model, with a counter that yields 1, 2, 3, ... in turn. */
module Scenarios {
  import opened Values
  import opened Table
  import opened Coordinator

  // ---------------------------------------------------------------------------
  // A table `item(id, name)` keyed by `id`, with no extra columns.

  function ItemDef(): TableDef {
    TableDef("item", ["id"], ["id", "name"], [])
  }

  function ItemDb(): Database {
    AddTable(NewDatabase([], "qmark").value, "item", ["id"], ["id", "name"])
  }

  lemma ItemDbTables()
    ensures ItemDb().tables == map["item" := ItemDef()]
  {
  }

  function Item(id: int, name: string): Row {
    map["id" := Int(id), "name" := Text(name)]
  }

  function ItemKey(id: int): Key {
    Key([Int(id)], [])
  }

  function ItemStore(contents: Contents): Store {
    map["item" := contents]
  }

  function ItemRequest(timestamp: int, delta: Delta): Request {
    Request(timestamp, [("item", delta)])
  }

  function ItemResponse(timestamp: int, modified: set<Row>, deleted: set<Row>): Response {
    Response(timestamp, map["item" := Reply(modified, deleted)])
  }

  /** Any exchange on the item table alone, by a readable request, commits;
      the table gets the outcome of its own exchange. */
  lemma ItemExchangeRuns(t: Contents, delta: Delta, last: int, counter: int)
    requires Readable(ItemDef(), map[], delta)
    ensures var out := Synchronize(ItemDb(), ItemStore(t), ItemRequest(last, delta), map[], counter);
            && out.Committed?
            && out.response.timestamp == counter
            && out.store.Keys == {"item"}
            && out.response.tables.Keys == {"item"}
            && RanAlone(ItemDb(), ItemStore(t), Applied(out.store, out.response.tables), map[], Clamp(last), counter, ("item", delta))
  {
    var db := ItemDb();
    var store := ItemStore(t);
    var req := ItemRequest(last, delta);
    ItemDbTables();
    assert Runnable(db, store.Keys, map[], req.tables[0]);
    assert Names(req.tables) == {"item"};
    SynchronizePerTable(db, store, req, map[], counter, 0);
  }

  /** The reply of an exchange on the item table alone is what the requester is missing. */
  lemma ItemReply(t: Contents, delta: Delta, last: int, counter: int)
    requires Readable(ItemDef(), map[], delta)
    ensures var out := Synchronize(ItemDb(), ItemStore(t), ItemRequest(last, delta), map[], counter);
            && out.Committed?
            && out.response.tables["item"] == Reply(MissedChanges(t, ItemDef(), [], Clamp(last), counter, delta),
                                                    MissedDeletions(t, ItemDef(), [], Clamp(last), counter, delta))
  {
    var db := ItemDb();
    var store := ItemStore(t);
    var req := ItemRequest(last, delta);
    ItemExchangeRuns(t, delta, last, counter);
    ItemDbTables();
    assert DistinctNames(req.tables);
    ExchangeReplyExact(db, store, req, map[], counter, 0);
    assert ExtraValues(ItemDef(), map[]) == [];
  }

  /** Any exchange on the item table alone commits, answering what the
      requester is missing. */
  lemma ItemExchange(t: Contents, delta: Delta, last: int, counter: int)
    requires Readable(ItemDef(), map[], delta)
    ensures Synchronize(ItemDb(), ItemStore(t), ItemRequest(last, delta), map[], counter)
            == Committed(ItemStore(Sync(t, ItemDef(), map[], Clamp(last), counter, delta).value.contents),
                         ItemResponse(counter, MissedChanges(t, ItemDef(), [], Clamp(last), counter, delta),
                                      MissedDeletions(t, ItemDef(), [], Clamp(last), counter, delta)))
  {
    var out := Synchronize(ItemDb(), ItemStore(t), ItemRequest(last, delta), map[], counter);
    var contents := Sync(t, ItemDef(), map[], Clamp(last), counter, delta).value.contents;
    var reply := Reply(MissedChanges(t, ItemDef(), [], Clamp(last), counter, delta),
                       MissedDeletions(t, ItemDef(), [], Clamp(last), counter, delta));
    assert out.Committed? && out.response.timestamp == counter && out.store == ItemStore(contents) by {
      ItemExchangeRuns(t, delta, last, counter);
      ItemDbTables();
      assert out.store == map["item" := out.store["item"]];
    }
    assert out.response.tables == map["item" := reply] by {
      ItemExchangeRuns(t, delta, last, counter);
      ItemReply(t, delta, last, counter);
    }
  }

  function Basic1(): Contents {
    map[ItemKey(1) := Entry(Item(1, "Item 1"), 1)]
  }

  function Basic2(): Contents {
    map[ItemKey(1) := Entry(Item(1, "Item 1"), 1), ItemKey(2) := Entry(Item(2, "Item 2"), 2)]
  }

  function Basic3(): Contents {
    map[ItemKey(1) := Entry(Item(1, "Item 1"), -3), ItemKey(2) := Entry(Item(2, "Item 2"), 2)]
  }

  /** Writing item `id` stores exactly that item under its key, stamped with
      the counter value, whether or not the table held it before. */
  lemma WriteItem(t: Contents, id: int, name: string, last: int, counter: int)
    ensures var delta := Delta([Item(id, name)], []);
            && Readable(ItemDef(), map[], delta)
            && Sync(t, ItemDef(), map[], last, counter, delta).value.contents == t[ItemKey(id) := Entry(Item(id, name), counter)]
  {
    var def := ItemDef();
    var delta := Delta([Item(id, name)], []);
    assert HasColumns(Item(id, name), def.columns);
    assert Stored(def, Item(id, name)) == Item(id, name);
    assert RowKey(def, Item(id, name), []) == ItemKey(id);
    assert ModifiedKeys(def, delta.modified, []) == [ItemKey(id)];
    UpsertLastWriteWins(t, def, delta.modified, counter, [], 0);
  }

  /** Client A adds item 1 and hears of nothing. */
  lemma BasicAddFirst()
    ensures Synchronize(ItemDb(), ItemStore(map[]), ItemRequest(0, Delta([Item(1, "Item 1")], [])), map[], 1)
            == Committed(ItemStore(Basic1()), ItemResponse(1, {}, {}))
  {
    var delta := Delta([Item(1, "Item 1")], []);
    WriteItem(map[], 1, "Item 1", 0, 1);
    ItemExchange(map[], delta, 0, 1);
    assert MissedChanges(map[], ItemDef(), [], 0, 1, delta) == {};
    assert MissedDeletions(map[], ItemDef(), [], 0, 1, delta) == {};
  }

  lemma AddSecondMisses()
    ensures var delta := Delta([Item(2, "Item 2")], []);
            && MissedChanges(Basic1(), ItemDef(), [], 0, 2, delta) == {Item(1, "Item 1")}
            && MissedDeletions(Basic1(), ItemDef(), [], 0, 2, delta) == {}
  {
    var def := ItemDef();
    var delta := Delta([Item(2, "Item 2")], []);
    assert ModifiedKeys(def, delta.modified, []) == [ItemKey(2)] by {
      assert RowKey(def, Item(2, "Item 2"), []) == ItemKey(2);
    }
    assert !Touched(def, delta, [], ItemKey(1));
    assert Project(Item(1, "Item 1"), def.columns) == Item(1, "Item 1");
  }

  /** Client B, never synchronized, adds item 2 and hears of item 1. */
  lemma BasicAddSecond()
    ensures Synchronize(ItemDb(), ItemStore(Basic1()), ItemRequest(0, Delta([Item(2, "Item 2")], [])), map[], 2)
            == Committed(ItemStore(Basic2()), ItemResponse(2, {Item(1, "Item 1")}, {}))
  {
    WriteItem(Basic1(), 2, "Item 2", 0, 2);
    ItemExchange(Basic1(), Delta([Item(2, "Item 2")], []), 0, 2);
    AddSecondMisses();
  }

  lemma DeleteContents()
    ensures var delta := Delta([], [map["id" := Int(1)]]);
            && Readable(ItemDef(), map[], delta)
            && Sync(Basic2(), ItemDef(), map[], 1, 3, delta).value.contents == Basic3()
  {
    var def := ItemDef();
    var delta := Delta([], [map["id" := Int(1)]]);
    assert HasColumns(map["id" := Int(1)], def.primary);
    assert Fetch(map["id" := Int(1)], def.primary) == [Int(1)];
    assert DeletedKeys(def, delta.deleted, []) == [ItemKey(1)];
  }

  lemma DeleteMisses()
    ensures var delta := Delta([], [map["id" := Int(1)]]);
            && MissedChanges(Basic2(), ItemDef(), [], 1, 3, delta) == {Item(2, "Item 2")}
            && MissedDeletions(Basic2(), ItemDef(), [], 1, 3, delta) == {}
  {
    var def := ItemDef();
    var delta := Delta([], [map["id" := Int(1)]]);
    assert Fetch(map["id" := Int(1)], def.primary) == [Int(1)];
    assert DeletedKeys(def, delta.deleted, []) == [ItemKey(1)];
    assert !Touched(def, delta, [], ItemKey(2));
    assert Project(Item(2, "Item 2"), def.columns) == Item(2, "Item 2");
  }

  /** Client A deletes item 1 and hears of item 2. The tombstone keeps the row
      and carries the negated time of the exchange. */
  lemma BasicDelete()
    ensures Synchronize(ItemDb(), ItemStore(Basic2()), ItemRequest(1, Delta([], [map["id" := Int(1)]])), map[], 3)
            == Committed(ItemStore(Basic3()), ItemResponse(3, {Item(2, "Item 2")}, {}))
  {
    DeleteContents();
    ItemExchange(Basic2(), Delta([], [map["id" := Int(1)]]), 1, 3);
    DeleteMisses();
  }

  lemma HearDeletionMisses()
    ensures MissedChanges(Basic3(), ItemDef(), [], 2, 4, Delta([], [])) == {}
    ensures MissedDeletions(Basic3(), ItemDef(), [], 2, 4, Delta([], [])) == {map["id" := Int(1)]}
  {
    var def := ItemDef();
    assert !Touched(def, Delta([], []), [], ItemKey(1));
    assert Project(Item(1, "Item 1"), def.primary) == map["id" := Int(1)];
  }

  /** Client B, last synchronized at 2, submits nothing and hears of the
      deletion of item 1 as its primary key alone; the store keeps the
      tombstone `(1, "Item 1", -3)` and the live row `(2, "Item 2", 2)`. */
  lemma BasicHearDeletion()
    ensures Synchronize(ItemDb(), ItemStore(Basic3()), ItemRequest(2, Delta([], [])), map[], 4)
            == Committed(ItemStore(Basic3()), ItemResponse(4, {}, {map["id" := Int(1)]}))
  {
    ItemExchange(Basic3(), Delta([], []), 2, 4);
    assert Sync(Basic3(), ItemDef(), map[], 2, 4, Delta([], [])).value.contents == Basic3();
    HearDeletionMisses();
  }

  // ---------------------------------------------------------------------------
  // Tables `thread(id, name)` and `post(id, thread_id, text)` partitioned by
  // the extra column `user`.

  function ThreadDef(): TableDef {
    TableDef("thread", ["id"], ["id", "name"], ["user"])
  }

  function PostDef(): TableDef {
    TableDef("post", ["id", "thread_id"], ["id", "thread_id", "text"], ["user"])
  }

  function ForumDb(): Database {
    AddTable(AddTable(NewDatabase(["user"], "qmark").value, "thread", ["id"], ["id", "name"]), "post", ["id", "thread_id"], ["id", "thread_id", "text"])
  }

  function User(id: int): Row {
    map["user" := Int(id)]
  }

  function Thread(id: int, name: string): Row {
    map["id" := Int(id), "name" := Text(name)]
  }

  function Post(id: int, thread: int, text: string): Row {
    map["id" := Int(id), "thread_id" := Int(thread), "text" := Text(text)]
  }

  function ThreadKey(id: int, user: int): Key {
    Key([Int(id)], [Int(user)])
  }

  function PostKey(id: int, thread: int, user: int): Key {
    Key([Int(id), Int(thread)], [Int(user)])
  }

  function ForumStore(threads: Contents, posts: Contents): Store {
    map["thread" := threads, "post" := posts]
  }

  function ForumRequest(timestamp: int, threads: Delta, posts: Delta): Request {
    Request(timestamp, [("thread", threads), ("post", posts)])
  }

  lemma ForumDbTables()
    ensures ForumDb().tables == map["thread" := ThreadDef(), "post" := PostDef()]
    ensures ForumDb().extras == ["user"]
  {
  }

  /** Any exchange naming both forum tables, by a readable request, commits;
      each table gets the outcome of its own exchange. */
  lemma ForumExchange(threads: Contents, posts: Contents, user: int, last: int, counter: int, threadDelta: Delta, postDelta: Delta)
    requires Readable(ThreadDef(), User(user), threadDelta) && Readable(PostDef(), User(user), postDelta)
    ensures var out := Synchronize(ForumDb(), ForumStore(threads, posts), ForumRequest(last, threadDelta, postDelta), User(user), counter);
            && out.Committed?
            && out.response.timestamp == counter
            && out.store.Keys == {"thread", "post"}
            && out.response.tables.Keys == {"thread", "post"}
            && RanAlone(ForumDb(), ForumStore(threads, posts), Applied(out.store, out.response.tables), User(user), Clamp(last), counter, ("thread", threadDelta))
            && RanAlone(ForumDb(), ForumStore(threads, posts), Applied(out.store, out.response.tables), User(user), Clamp(last), counter, ("post", postDelta))
  {
    var db := ForumDb();
    var store := ForumStore(threads, posts);
    var req := ForumRequest(last, threadDelta, postDelta);
    var ctx := User(user);
    assert Runnable(db, store.Keys, ctx, req.tables[0]) && Runnable(db, store.Keys, ctx, req.tables[1]) by {
      ForumDbTables();
    }
    assert DistinctNames(req.tables);
    assert Names(req.tables) == {"thread", "post"};
    SynchronizePerTable(db, store, req, ctx, counter, 0);
    SynchronizePerTable(db, store, req, ctx, counter, 1);
  }

  /** The reply a forum table gets in such an exchange: what user `user` is missing. */
  lemma ForumReply(threads: Contents, posts: Contents, user: int, last: int, counter: int, threadDelta: Delta, postDelta: Delta)
    requires Readable(ThreadDef(), User(user), threadDelta) && Readable(PostDef(), User(user), postDelta)
    ensures var out := Synchronize(ForumDb(), ForumStore(threads, posts), ForumRequest(last, threadDelta, postDelta), User(user), counter);
            && out.Committed?
            && out.response.tables.Keys == {"thread", "post"}
            && out.response.tables["thread"] == Reply(MissedChanges(threads, ThreadDef(), [Int(user)], Clamp(last), counter, threadDelta),
                                                     MissedDeletions(threads, ThreadDef(), [Int(user)], Clamp(last), counter, threadDelta))
            && out.response.tables["post"] == Reply(MissedChanges(posts, PostDef(), [Int(user)], Clamp(last), counter, postDelta),
                                                   MissedDeletions(posts, PostDef(), [Int(user)], Clamp(last), counter, postDelta))
  {
    var db := ForumDb();
    var store := ForumStore(threads, posts);
    var req := ForumRequest(last, threadDelta, postDelta);
    var ctx := User(user);
    ForumExchange(threads, posts, user, last, counter, threadDelta, postDelta);
    assert db.tables["thread"] == ThreadDef() && db.tables["post"] == PostDef() && db.extras == ["user"] by {
      ForumDbTables();
    }
    assert DistinctNames(req.tables);
    ExchangeReplyExact(db, store, req, ctx, counter, 0);
    ExchangeReplyExact(db, store, req, ctx, counter, 1);
    assert ExtraValues(ThreadDef(), ctx) == [Int(user)];
    assert ExtraValues(PostDef(), ctx) == [Int(user)];
  }

  /** Writing one row, deleting nothing, stores that row under its key at the counter value. */
  lemma WriteOne(t: Contents, def: TableDef, ctx: Row, last: int, counter: int, row: Row)
    requires Readable(def, ctx, Delta([row], []))
    ensures Sync(t, def, ctx, last, counter, Delta([row], [])).value.contents
            == t[RowKey(def, row, ExtraValues(def, ctx)) := Entry(Stored(def, row), counter)]
  {
  }

  /** Writing two rows, deleting nothing, stores them in turn at the counter value. */
  lemma WriteTwo(t: Contents, def: TableDef, ctx: Row, last: int, counter: int, a: Row, b: Row)
    requires Readable(def, ctx, Delta([a, b], []))
    ensures Sync(t, def, ctx, last, counter, Delta([a, b], [])).value.contents
            == t[RowKey(def, a, ExtraValues(def, ctx)) := Entry(Stored(def, a), counter)]
                [RowKey(def, b, ExtraValues(def, ctx)) := Entry(Stored(def, b), counter)]
  {
    var ev := ExtraValues(def, ctx);
    var keys := ModifiedKeys(def, [a, b], ev);
    assert keys[0] == RowKey(def, a, ev) && keys[1] == RowKey(def, b, ev);
    assert [a, b][..1] == [a] && [a][..0] == [];
    assert ModifiedKeys(def, [a], ev)[0] == RowKey(def, a, ev);
    assert Upsert(t, def, [a], counter, ev) == t[RowKey(def, a, ev) := Entry(Stored(def, a), counter)];
  }

  /** User 1's first exchange writes thread 1 and post 1. */
  function FirstThreads(): Contents {
    map[ThreadKey(1, 1) := Entry(Thread(1, "Thread 1"), 1)]
  }

  function FirstPosts(): Contents {
    map[PostKey(1, 1, 1) := Entry(Post(1, 1, "Post 1"), 1)]
  }

  /** User 2's first exchange writes its own thread 1 and post 1 beside user 1's. */
  function SecondPosts(): Contents {
    map[PostKey(1, 1, 1) := Entry(Post(1, 1, "Post 1"), 1), PostKey(1, 1, 2) := Entry(Post(1, 1, "Post 1"), 2)]
  }

  /** The request of a client that has never synchronized and adds thread 1 and post 1. */
  function AddThreadRequest(): Request {
    ForumRequest(0, Delta([Thread(1, "Thread 1")], []), Delta([Post(1, 1, "Post 1")], []))
  }

  /** The request of user 1's client A, last synchronized at 1, editing post 1 and adding post 2. */
  function EditPostRequest(): Request {
    ForumRequest(1, Delta([], []), Delta([Post(1, 1, "Post 1 edit"), Post(2, 1, "Post 2")], []))
  }

  /** The thread and post user `user` adds, as stored. */
  lemma AddThreadContents(threads: Contents, posts: Contents, user: int, counter: int)
    ensures Readable(ThreadDef(), User(user), Delta([Thread(1, "Thread 1")], []))
    ensures Readable(PostDef(), User(user), Delta([Post(1, 1, "Post 1")], []))
    ensures Sync(threads, ThreadDef(), User(user), 0, counter, Delta([Thread(1, "Thread 1")], [])).value.contents
            == threads[ThreadKey(1, user) := Entry(Thread(1, "Thread 1"), counter)]
    ensures Sync(posts, PostDef(), User(user), 0, counter, Delta([Post(1, 1, "Post 1")], [])).value.contents
            == posts[PostKey(1, 1, user) := Entry(Post(1, 1, "Post 1"), counter)]
  {
    assert HasColumns(User(user), ["user"]);
    assert ExtraValues(ThreadDef(), User(user)) == [Int(user)];
    assert ExtraValues(PostDef(), User(user)) == [Int(user)];
    assert HasColumns(Thread(1, "Thread 1"), ThreadDef().columns);
    assert HasColumns(Post(1, 1, "Post 1"), PostDef().columns);
    assert Stored(ThreadDef(), Thread(1, "Thread 1")) == Thread(1, "Thread 1");
    assert Stored(PostDef(), Post(1, 1, "Post 1")) == Post(1, 1, "Post 1");
    assert RowKey(ThreadDef(), Thread(1, "Thread 1"), [Int(user)]) == ThreadKey(1, user);
    assert RowKey(PostDef(), Post(1, 1, "Post 1"), [Int(user)]) == PostKey(1, 1, user);
    WriteOne(threads, ThreadDef(), User(user), 0, counter, Thread(1, "Thread 1"));
    WriteOne(posts, PostDef(), User(user), 0, counter, Post(1, 1, "Post 1"));
  }

  /** User 1's client A, never synchronized, adds thread 1 and post 1 at
      counter 1 and hears of nothing. */
  lemma ForumAddFirst()
    ensures Synchronize(ForumDb(), ForumStore(map[], map[]), AddThreadRequest(), User(1), 1)
            == Committed(ForumStore(FirstThreads(), FirstPosts()),
                         Response(1, map["thread" := Reply({}, {}), "post" := Reply({}, {})]))
  {
    var td := Delta([Thread(1, "Thread 1")], []);
    var pd := Delta([Post(1, 1, "Post 1")], []);
    AddThreadContents(map[], map[], 1, 1);
    ForumStoreAfter(map[], map[], 1, 0, 1, td, pd, FirstThreads(), FirstPosts());
    assert MissedChanges(map[], ThreadDef(), [Int(1)], 0, 1, td) == {};
    assert MissedDeletions(map[], ThreadDef(), [Int(1)], 0, 1, td) == {};
    assert MissedChanges(map[], PostDef(), [Int(1)], 0, 1, pd) == {};
    assert MissedDeletions(map[], PostDef(), [Int(1)], 0, 1, pd) == {};
    ForumResponseAfter(map[], map[], 1, 0, 1, td, pd, Reply({}, {}), Reply({}, {}));
  }

  /** Nothing of user 1's partition reaches user 2. */
  lemma AddSecondUserMisses()
    ensures MissedChanges(FirstThreads(), ThreadDef(), [Int(2)], 0, 2, Delta([Thread(1, "Thread 1")], [])) == {}
    ensures MissedDeletions(FirstThreads(), ThreadDef(), [Int(2)], 0, 2, Delta([Thread(1, "Thread 1")], [])) == {}
    ensures MissedChanges(FirstPosts(), PostDef(), [Int(2)], 0, 2, Delta([Post(1, 1, "Post 1")], [])) == {}
    ensures MissedDeletions(FirstPosts(), PostDef(), [Int(2)], 0, 2, Delta([Post(1, 1, "Post 1")], [])) == {}
  {
    assert FirstThreads().Keys == {ThreadKey(1, 1)};
    assert FirstPosts().Keys == {PostKey(1, 1, 1)};
  }

  /** User 2's client A, never synchronized, adds its own thread 1 and post 1
      at counter 2 and hears of nothing of user 1's. */
  lemma ForumAddSecondUser()
    ensures Synchronize(ForumDb(), ForumStore(FirstThreads(), FirstPosts()), AddThreadRequest(), User(2), 2)
            == Committed(ForumStore(Threads3(), SecondPosts()),
                         Response(2, map["thread" := Reply({}, {}), "post" := Reply({}, {})]))
  {
    var td := Delta([Thread(1, "Thread 1")], []);
    var pd := Delta([Post(1, 1, "Post 1")], []);
    AddThreadContents(FirstThreads(), FirstPosts(), 2, 2);
    assert FirstThreads()[ThreadKey(1, 2) := Entry(Thread(1, "Thread 1"), 2)] == Threads3();
    assert FirstPosts()[PostKey(1, 1, 2) := Entry(Post(1, 1, "Post 1"), 2)] == SecondPosts();
    ForumStoreAfter(FirstThreads(), FirstPosts(), 2, 0, 2, td, pd, Threads3(), SecondPosts());
    AddSecondUserMisses();
    ForumResponseAfter(FirstThreads(), FirstPosts(), 2, 0, 2, td, pd, Reply({}, {}), Reply({}, {}));
  }

  /** The edit of post 1 replaces the stored row; post 2 is new. */
  lemma EditPostContents()
    ensures Readable(ThreadDef(), User(1), Delta([], []))
    ensures Readable(PostDef(), User(1), Delta([Post(1, 1, "Post 1 edit"), Post(2, 1, "Post 2")], []))
    ensures Sync(Threads3(), ThreadDef(), User(1), 1, 3, Delta([], [])).value.contents == Threads3()
    ensures Sync(SecondPosts(), PostDef(), User(1), 1, 3, Delta([Post(1, 1, "Post 1 edit"), Post(2, 1, "Post 2")], [])).value.contents
            == Posts3()
  {
    var edit := Post(1, 1, "Post 1 edit");
    var second := Post(2, 1, "Post 2");
    assert HasColumns(User(1), ["user"]);
    assert Sync(Threads3(), ThreadDef(), User(1), 1, 3, Delta([], [])).value.contents == Threads3() by {
      assert Readable(ThreadDef(), User(1), Delta([], []));
    }
    assert HasColumns(edit, PostDef().columns) && HasColumns(second, PostDef().columns);
    assert Readable(PostDef(), User(1), Delta([edit, second], []));
    EditPostWrites();
    WriteTwo(SecondPosts(), PostDef(), User(1), 1, 3, edit, second);
  }

  /** A post row is stored as submitted, under its id, thread and user. */
  lemma PostStored(id: int, thread: int, text: string, user: int)
    ensures Stored(PostDef(), Post(id, thread, text)) == Post(id, thread, text)
    ensures RowKey(PostDef(), Post(id, thread, text), [Int(user)]) == PostKey(id, thread, user)
  {
    var p := Post(id, thread, text);
    assert Stored(PostDef(), p) == p;
    assert Fetch(p, PostDef().primary) == [Int(id), Int(thread)];
  }

  lemma EditPostWrites()
    ensures var edit := Post(1, 1, "Post 1 edit");
            var second := Post(2, 1, "Post 2");
            var ev := ExtraValues(PostDef(), User(1));
            SecondPosts()[RowKey(PostDef(), edit, ev) := Entry(Stored(PostDef(), edit), 3)]
                         [RowKey(PostDef(), second, ev) := Entry(Stored(PostDef(), second), 3)] == Posts3()
  {
    assert ExtraValues(PostDef(), User(1)) == [Int(1)];
    PostStored(1, 1, "Post 1 edit", 1);
    PostStored(2, 1, "Post 2", 1);
  }

  /** User 1's client A hears nothing back: its thread is older than its sync
      point and its posts are its own writes. */
  lemma EditPostMisses()
    ensures MissedChanges(Threads3(), ThreadDef(), [Int(1)], 1, 3, Delta([], [])) == {}
    ensures MissedDeletions(Threads3(), ThreadDef(), [Int(1)], 1, 3, Delta([], [])) == {}
    ensures var pd := Delta([Post(1, 1, "Post 1 edit"), Post(2, 1, "Post 2")], []);
            && MissedChanges(SecondPosts(), PostDef(), [Int(1)], 1, 3, pd) == {}
            && MissedDeletions(SecondPosts(), PostDef(), [Int(1)], 1, 3, pd) == {}
  {
    assert Threads3().Keys == {ThreadKey(1, 1), ThreadKey(1, 2)};
    assert SecondPosts().Keys == {PostKey(1, 1, 1), PostKey(1, 1, 2)};
  }

  /** User 1's client A, last synchronized at 1, edits post 1 and adds post 2
      at counter 3 and hears of nothing. */
  lemma ForumEditPost()
    ensures Synchronize(ForumDb(), ForumStore(Threads3(), SecondPosts()), EditPostRequest(), User(1), 3)
            == Committed(ForumStore(Threads3(), Posts3()),
                         Response(3, map["thread" := Reply({}, {}), "post" := Reply({}, {})]))
  {
    var td := Delta([], []);
    var pd := Delta([Post(1, 1, "Post 1 edit"), Post(2, 1, "Post 2")], []);
    EditPostContents();
    ForumStoreAfter(Threads3(), SecondPosts(), 1, 1, 3, td, pd, Threads3(), Posts3());
    EditPostMisses();
    ForumResponseAfter(Threads3(), SecondPosts(), 1, 1, 3, td, pd, Reply({}, {}), Reply({}, {}));
  }

  /** The forum after the first three exchanges: each user has thread 1 and
      post 1; user 1 has since edited post 1 and added post 2. */
  function Threads3(): Contents {
    map[ThreadKey(1, 1) := Entry(Thread(1, "Thread 1"), 1), ThreadKey(1, 2) := Entry(Thread(1, "Thread 1"), 2)]
  }

  function Posts3(): Contents {
    map[PostKey(1, 1, 1) := Entry(Post(1, 1, "Post 1 edit"), 3),
        PostKey(2, 1, 1) := Entry(Post(2, 1, "Post 2"), 3),
        PostKey(1, 1, 2) := Entry(Post(1, 1, "Post 1"), 2)]
  }

  /** The thread table after user 1 deletes thread 1: user 2's thread 1 is still live. */
  function Threads4(): Contents {
    map[ThreadKey(1, 1) := Entry(Thread(1, "Thread 1"), -4), ThreadKey(1, 2) := Entry(Thread(1, "Thread 1"), 2)]
  }

  lemma PartitionedDeleteContents()
    ensures var delta := Delta([], [map["id" := Int(1)]]);
            && Readable(ThreadDef(), User(1), delta)
            && Sync(Threads3(), ThreadDef(), User(1), 0, 4, delta).value.contents == Threads4()
  {
    var def := ThreadDef();
    var delta := Delta([], [map["id" := Int(1)]]);
    assert HasColumns(User(1), def.extras);
    assert HasColumns(map["id" := Int(1)], def.primary);
    assert ExtraValues(def, User(1)) == [Int(1)];
    assert Fetch(map["id" := Int(1)], def.primary) == [Int(1)];
    assert DeletedKeys(def, delta.deleted, [Int(1)]) == [ThreadKey(1, 1)];
  }

  lemma PartitionedDeleteThreadMisses()
    ensures var delta := Delta([], [map["id" := Int(1)]]);
            && MissedChanges(Threads3(), ThreadDef(), [Int(1)], 0, 4, delta) == {}
            && MissedDeletions(Threads3(), ThreadDef(), [Int(1)], 0, 4, delta) == {}
  {
    var def := ThreadDef();
    var delta := Delta([], [map["id" := Int(1)]]);
    assert Fetch(map["id" := Int(1)], def.primary) == [Int(1)];
    assert DeletedKeys(def, delta.deleted, [Int(1)]) == [ThreadKey(1, 1)];
    assert Touched(def, delta, [Int(1)], ThreadKey(1, 1));
  }

  lemma PartitionedDeletePostMisses()
    ensures MissedChanges(Posts3(), PostDef(), [Int(1)], 0, 4, Delta([], []))
            == {Post(1, 1, "Post 1 edit"), Post(2, 1, "Post 2")}
    ensures MissedDeletions(Posts3(), PostDef(), [Int(1)], 0, 4, Delta([], [])) == {}
  {
    var def := PostDef();
    var delta := Delta([], []);
    assert !Touched(def, delta, [Int(1)], PostKey(1, 1, 1));
    assert !Touched(def, delta, [Int(1)], PostKey(2, 1, 1));
    assert Project(Post(1, 1, "Post 1 edit"), def.columns) == Post(1, 1, "Post 1 edit");
    assert Project(Post(2, 1, "Post 2"), def.columns) == Post(2, 1, "Post 2");
  }

  function PartitionedDeleteRequest(): Request {
    ForumRequest(0, Delta([], [map["id" := Int(1)]]), Delta([], []))
  }

  /** The store a committed forum exchange leaves, given each table's new contents. */
  lemma ForumStoreAfter(threads: Contents, posts: Contents, user: int, last: int, counter: int,
                                           threadDelta: Delta, postDelta: Delta, threads': Contents, posts': Contents)
    requires Readable(ThreadDef(), User(user), threadDelta) && Readable(PostDef(), User(user), postDelta)
    requires Sync(threads, ThreadDef(), User(user), Clamp(last), counter, threadDelta).value.contents == threads'
    requires Sync(posts, PostDef(), User(user), Clamp(last), counter, postDelta).value.contents == posts'
    ensures var out := Synchronize(ForumDb(), ForumStore(threads, posts), ForumRequest(last, threadDelta, postDelta), User(user), counter);
            out.Committed? && out.store == ForumStore(threads', posts')
  {
    var store := ForumStore(threads, posts);
    var out := Synchronize(ForumDb(), store, ForumRequest(last, threadDelta, postDelta), User(user), counter);
    var applied := Applied(out.store, out.response.tables);
    assert out.Committed? && out.store.Keys == {"thread", "post"} by {
      ForumExchange(threads, posts, user, last, counter, threadDelta, postDelta);
    }
    assert out.store["thread"] == threads' by {
      ForumExchange(threads, posts, user, last, counter, threadDelta, postDelta);
      ForumDbTables();
      assert RanAlone(ForumDb(), store, applied, User(user), Clamp(last), counter, ("thread", threadDelta));
    }
    assert out.store["post"] == posts' by {
      ForumExchange(threads, posts, user, last, counter, threadDelta, postDelta);
      ForumDbTables();
      assert RanAlone(ForumDb(), store, applied, User(user), Clamp(last), counter, ("post", postDelta));
    }
    MapOfTwo(out.store, "thread", "post");
  }

  /** A map whose domain is exactly two keys is the display of those keys. */
  lemma MapOfTwo<K, V>(m: map<K, V>, a: K, b: K)
    requires m.Keys == {a, b}
    ensures m == map[a := m[a], b := m[b]]
  {
  }

  lemma PartitionedDeleteStore()
    ensures var out := Synchronize(ForumDb(), ForumStore(Threads3(), Posts3()), PartitionedDeleteRequest(), User(1), 4);
            out.Committed? && out.store == ForumStore(Threads4(), Posts3())
  {
    PartitionedDeleteContents();
    assert Readable(PostDef(), User(1), Delta([], [])) by {
      assert HasColumns(User(1), PostDef().extras);
    }
    assert Sync(Posts3(), PostDef(), User(1), 0, 4, Delta([], [])).value.contents == Posts3();
    ForumStoreAfter(Threads3(), Posts3(), 1, 0, 4, Delta([], [map["id" := Int(1)]]), Delta([], []), Threads4(), Posts3());
  }

  /** The response a committed forum exchange gives, given what user `user` is missing of each table. */
  lemma ForumResponseAfter(threads: Contents, posts: Contents, user: int, last: int, counter: int,
                                              threadDelta: Delta, postDelta: Delta, threadReply: Reply, postReply: Reply)
    requires Readable(ThreadDef(), User(user), threadDelta) && Readable(PostDef(), User(user), postDelta)
    requires threadReply == Reply(MissedChanges(threads, ThreadDef(), [Int(user)], Clamp(last), counter, threadDelta),
                                  MissedDeletions(threads, ThreadDef(), [Int(user)], Clamp(last), counter, threadDelta))
    requires postReply == Reply(MissedChanges(posts, PostDef(), [Int(user)], Clamp(last), counter, postDelta),
                                MissedDeletions(posts, PostDef(), [Int(user)], Clamp(last), counter, postDelta))
    ensures var out := Synchronize(ForumDb(), ForumStore(threads, posts), ForumRequest(last, threadDelta, postDelta), User(user), counter);
            out.Committed? && out.response == Response(counter, map["thread" := threadReply, "post" := postReply])
  {
    var out := Synchronize(ForumDb(), ForumStore(threads, posts), ForumRequest(last, threadDelta, postDelta), User(user), counter);
    assert out.Committed? && out.response.timestamp == counter && out.response.tables.Keys == {"thread", "post"} by {
      ForumExchange(threads, posts, user, last, counter, threadDelta, postDelta);
    }
    assert out.response.tables["thread"] == threadReply && out.response.tables["post"] == postReply by {
      ForumReply(threads, posts, user, last, counter, threadDelta, postDelta);
    }
    MapOfTwo(out.response.tables, "thread", "post");
  }

  lemma PartitionedDeleteResponse()
    ensures var out := Synchronize(ForumDb(), ForumStore(Threads3(), Posts3()), PartitionedDeleteRequest(), User(1), 4);
            && out.Committed?
            && out.response == Response(4, map["thread" := Reply({}, {}),
                                               "post" := Reply({Post(1, 1, "Post 1 edit"), Post(2, 1, "Post 2")}, {})])
  {
    PartitionedDeleteContents();
    assert Readable(PostDef(), User(1), Delta([], [])) by {
      assert HasColumns(User(1), PostDef().extras);
    }
    PartitionedDeleteThreadMisses();
    PartitionedDeletePostMisses();
    ForumResponseAfter(Threads3(), Posts3(), 1, 0, 4, Delta([], [map["id" := Int(1)]]), Delta([], []),
                       Reply({}, {}), Reply({Post(1, 1, "Post 1 edit"), Post(2, 1, "Post 2")}, {}));
  }

  /** User 1's second client, never synchronized, deletes thread 1. It hears
      of user 1's two posts and of nothing of user 2's; user 2's thread 1
      stays live while user 1's becomes a tombstone. */
  lemma PartitionedDelete()
    ensures var out := Synchronize(ForumDb(), ForumStore(Threads3(), Posts3()), PartitionedDeleteRequest(), User(1), 4);
            && out.Committed?
            && out.store == ForumStore(Threads4(), Posts3())
            && out.response == Response(4, map["thread" := Reply({}, {}),
                                               "post" := Reply({Post(1, 1, "Post 1 edit"), Post(2, 1, "Post 2")}, {})])
  {
    PartitionedDeleteStore();
    PartitionedDeleteResponse();
  }
}

=== FILE: table.dfy ===
/** One synchronized table: what the store holds for it, the four operation
    shapes built when the table is registered (upsert, mark-deleted,
    select-changed, select-deleted-keys), and the per-table exchange that runs
    them in order. */
module Table {
  import opened Errors
  import opened Values

  /** The uniqueness key of a stored row: its primary-key values followed by
      the extra (partition) values it was written under. */
  datatype Key = Key(primary: seq<Value>, extra: seq<Value>)

  /** A stored row: its schema columns and its signed timestamp. A positive
      timestamp is the time of the last write of a live row; a negative one is
      the negated time at which the row was deleted (a tombstone). */
  datatype Entry = Entry(row: Row, timestamp: int)

  /** The contents of one table: at most one entry per key. */
  type Contents = map<Key, Entry>

  predicate IsLive(e: Entry) {
    e.timestamp > 0
  }

  predicate IsTombstone(e: Entry) {
    e.timestamp < 0
  }

  function DeletedAt(e: Entry): int
    requires IsTombstone(e)
  {
    -e.timestamp
  }

  /** A registered table: its name, primary-key columns, schema columns (in
      schema order) and the extra columns every table of the database shares. */
  datatype TableDef = TableDef(name: string, primary: seq<Column>, columns: seq<Column>, extras: seq<Column>)

  /** A table's part of a request or response: rows written and rows deleted.
      A reply carries sets, since a query result has no defined order. */
  datatype Delta = Delta(modified: seq<Row>, deleted: seq<Row>)
  datatype Reply = Reply(modified: set<Row>, deleted: set<Row>)

  /** The outcome of a successful per-table exchange. */
  datatype Synced = Synced(contents: Contents, reply: Reply)

  // ---------------------------------------------------------------------------
  // Upsert: insert or replace a row under its primary key and extras.

  /** The stored form of a submitted row: its schema columns, any other field dropped. */
  function Stored(def: TableDef, row: Row): Row {
    Project(row, def.columns)
  }

  /** The key a submitted row is written under. */
  function RowKey(def: TableDef, row: Row, ev: seq<Value>): Key {
    Key(Fetch(Stored(def, row), def.primary), ev)
  }

  /** The keys the upsert writes, one per submitted row, in order. */
  function ModifiedKeys(def: TableDef, rows: seq<Row>, ev: seq<Value>): (r: seq<Key>)
    ensures |r| == |rows|
    ensures forall i | 0 <= i < |rows| :: r[i] == RowKey(def, rows[i], ev)
  {
    seq(|rows|, i requires 0 <= i < |rows| => RowKey(def, rows[i], ev))
  }

  /** Writes every row of `rows`, in order, with timestamp `now` under the
      extras `ev`; a row replaces whatever is stored under its key. */
  function Upsert(t: Contents, def: TableDef, rows: seq<Row>, now: int, ev: seq<Value>): (r: Contents)
    ensures forall k :: k in r <==> k in t || k in ModifiedKeys(def, rows, ev)
    ensures forall k | k in t && k !in ModifiedKeys(def, rows, ev) :: r[k] == t[k]
    ensures forall k | k in ModifiedKeys(def, rows, ev) :: r[k].timestamp == now
    decreases |rows|
  {
    if |rows| == 0 then t
    else
      var n := |rows| - 1;
      var keys := ModifiedKeys(def, rows, ev);
      assert ModifiedKeys(def, rows[..n], ev) == keys[..n];
      assert forall k :: k in keys <==> k in keys[..n] || k == keys[n] by {
        assert keys == keys[..n] + [keys[n]];
      }
      Upsert(t, def, rows[..n], now, ev)[keys[n] := Entry(Stored(def, rows[n]), now)]
  }

  /** Insert or replace: the entry under each written key is the stored form of
      the last submitted row with that key. */
  lemma {:induction false} UpsertLastWriteWins(t: Contents, def: TableDef, rows: seq<Row>, now: int, ev: seq<Value>, i: int)
    requires 0 <= i < |rows| && LastOccurrence(ModifiedKeys(def, rows, ev), i)
    ensures Upsert(t, def, rows, now, ev)[RowKey(def, rows[i], ev)] == Entry(Stored(def, rows[i]), now)
    decreases |rows|
  {
    var n := |rows| - 1;
    var keys := ModifiedKeys(def, rows, ev);
    assert ModifiedKeys(def, rows[..n], ev) == keys[..n];
    if i < n {
      assert keys[i] != keys[n];
      assert LastOccurrence(keys[..n], i);
      UpsertLastWriteWins(t, def, rows[..n], now, ev, i);
      assert rows[..n][i] == rows[i];
    }
  }

  // ---------------------------------------------------------------------------
  // Mark-deleted: negate the timestamp of the row matching primary key and extras.

  /** The keys the mark-deleted operation matches, one per deleted row. */
  function DeletedKeys(def: TableDef, rows: seq<Row>, ev: seq<Value>): (r: seq<Key>)
    ensures |r| == |rows|
    ensures forall i | 0 <= i < |rows| :: r[i] == Key(Fetch(rows[i], def.primary), ev)
  {
    seq(|rows|, i requires 0 <= i < |rows| => Key(Fetch(rows[i], def.primary), ev))
  }

  /** Sets the timestamp of the stored row under each key of `keys`, in order,
      to `-now`. A key with no stored row matches nothing. */
  function MarkDeleted(t: Contents, keys: seq<Key>, now: int): (r: Contents)
    ensures r.Keys == t.Keys
    ensures forall k | k in t :: r[k].row == t[k].row
    ensures forall k | k in t :: r[k].timestamp == if k in keys then -now else t[k].timestamp
    decreases |keys|
  {
    if |keys| == 0 then t
    else
      var n := |keys| - 1;
      var prefix := MarkDeleted(t, keys[..n], now);
      assert keys == keys[..n] + [keys[n]];
      if keys[n] in prefix then prefix[keys[n] := prefix[keys[n]].(timestamp := -now)] else prefix
  }

  // ---------------------------------------------------------------------------
  // The two SELECT shapes, sharing one condition.

  /** The condition both SELECT shapes share: the timestamp lies strictly
      between the bounds and the row belongs to the partition `ev`. */
  predicate InWindow(k: Key, e: Entry, low: int, high: int, ev: seq<Value>) {
    low < e.timestamp < high && k.extra == ev
  }

  /** Select-changed: every row in the window, read back as its schema columns. */
  function SelectChanged(t: Contents, def: TableDef, low: int, high: int, ev: seq<Value>): (r: set<Row>)
    ensures forall row | row in r :: forall c :: c in row <==> c in def.columns
  {
    set k | k in t && InWindow(k, t[k], low, high, ev) :: RowFactory(def.columns, Fetch(t[k].row, def.columns))
  }

  /** Select-deleted-keys: every row in the window, read back as its primary-key columns. */
  function SelectDeletedKeys(t: Contents, def: TableDef, low: int, high: int, ev: seq<Value>): (r: set<Row>)
    ensures forall row | row in r :: forall c :: c in row <==> c in def.primary
  {
    set k | k in t && InWindow(k, t[k], low, high, ev) :: RowFactory(def.primary, Fetch(t[k].row, def.primary))
  }

  /** With a non-negative lower bound, the changed window holds only live rows
      written strictly between the two sync points. */
  lemma ChangedWindowIsLive(k: Key, e: Entry, last: int, current: int, ev: seq<Value>)
    requires 0 <= last
    ensures InWindow(k, e, last, current, ev) <==> k.extra == ev && IsLive(e) && last < e.timestamp < current
  {
  }

  /** Negating and swapping the bounds turns the same condition into: a
      tombstone deleted strictly between the two sync points. */
  lemma NegatedWindowIsTombstone(k: Key, e: Entry, last: int, current: int, ev: seq<Value>)
    requires 0 <= last
    ensures InWindow(k, e, -current, -last, ev) <==> k.extra == ev && IsTombstone(e) && last < DeletedAt(e) < current
  {
  }

  // ---------------------------------------------------------------------------
  // The per-table exchange.

  /** True iff every statement built for the table is valid SQL. With no
      schema columns the changed read selects nothing (`SELECT  FROM`), and with
      no primary-key columns the deleted-keys read does; neither can be
      prepared, even with no rows to bind. */
  predicate Preparable(def: TableDef) {
    |def.columns| > 0 && |def.primary| > 0
  }

  /** True iff the exchange can run: the table's statements are valid, and
      the exchange can read every value it needs, because the caller gives
      every extra column, each modified row every schema column and each
      deleted row every primary-key column. */
  predicate Readable(def: TableDef, ctx: Row, delta: Delta) {
    && Preparable(def)
    && HasColumns(ctx, def.extras)
    && (forall i | 0 <= i < |delta.modified| :: HasColumns(delta.modified[i], def.columns))
    && (forall i | 0 <= i < |delta.deleted| :: HasColumns(delta.deleted[i], def.primary))
  }

  /** The extra values of the caller's partition. */
  function ExtraValues(def: TableDef, ctx: Row): seq<Value> {
    Fetch(ctx, def.extras)
  }

  /** True iff the exchange writes key `k`: it is the key of a modified or of a deleted row. */
  predicate Touched(def: TableDef, delta: Delta, ev: seq<Value>, k: Key) {
    k in ModifiedKeys(def, delta.modified, ev) || k in DeletedKeys(def, delta.deleted, ev)
  }

  /** One table's exchange: upsert the modified rows at `current`, mark the
      deleted rows at `-current`, then read the rows changed in the window
      (last, current) and the keys of the rows deleted in the window
      (-current, -last), all within the caller's partition. The deleted read
      uses the primary-key SELECT shape; the source runs the UPDATE shape at
      that point instead (see module AsWritten). */
  function Sync(t: Contents, def: TableDef, ctx: Row, last: int, current: int, delta: Delta): (r: Result<Synced>)
    ensures r.Failure? <==> !Readable(def, ctx, delta)
    ensures r.Success? ==>
              forall k :: k in r.value.contents <==> k in t || k in ModifiedKeys(def, delta.modified, ExtraValues(def, ctx))
  {
    if !HasColumns(ctx, def.extras) then Failure(MissingExtra)
    else if exists i | 0 <= i < |delta.modified| :: !HasColumns(delta.modified[i], def.columns) then Failure(MissingColumn)
    else if exists i | 0 <= i < |delta.deleted| :: !HasColumns(delta.deleted[i], def.primary) then Failure(MissingColumn)
    else if !Preparable(def) then Failure(MalformedStatement)
    else
      var ev := ExtraValues(def, ctx);
      var upserted := Upsert(t, def, delta.modified, current, ev);
      var written := MarkDeleted(upserted, DeletedKeys(def, delta.deleted, ev), current);
      var modified := SelectChanged(written, def, last, current, ev);
      var deleted := SelectDeletedKeys(written, def, -current, -last, ev);
      Success(Synced(written, Reply(modified, deleted)))
  }

  /** The contents a successful exchange leaves behind: an entry it writes
      carries `current` or `-current`; every other entry is the one stored
      before, and a key new to the table is one the exchange writes. */
  lemma WrittenEntries(t: Contents, def: TableDef, ctx: Row, last: int, current: int, delta: Delta)
    requires Sync(t, def, ctx, last, current, delta).Success?
    ensures var written := Sync(t, def, ctx, last, current, delta).value.contents;
            var ev := ExtraValues(def, ctx);
            && (forall k | k in written && Touched(def, delta, ev, k) ::
                  written[k].timestamp == current || written[k].timestamp == -current)
            && (forall k | k in written && !Touched(def, delta, ev, k) :: k in t && written[k] == t[k])
  {
  }

  /** No self-echo: nothing this exchange writes lies in either read window,
      so none of the requester's own writes come back in its reply. */
  lemma NoSelfEcho(t: Contents, def: TableDef, ctx: Row, last: int, current: int, delta: Delta)
    requires 0 <= last
    requires Sync(t, def, ctx, last, current, delta).Success?
    ensures var written := Sync(t, def, ctx, last, current, delta).value.contents;
            forall k | k in written && Touched(def, delta, ExtraValues(def, ctx), k) ::
              && !InWindow(k, written[k], last, current, ExtraValues(def, ctx))
              && !InWindow(k, written[k], -current, -last, ExtraValues(def, ctx))
  {
    WrittenEntries(t, def, ctx, last, current, delta);
  }

  /** The live rows of the requester's partition written strictly between the
      two sync points and not written again by this exchange, as schema
      columns: the changes the requester is missing. */
  function MissedChanges(t: Contents, def: TableDef, ev: seq<Value>, last: int, current: int, delta: Delta): set<Row> {
    set k | k in t && k.extra == ev && !Touched(def, delta, ev, k) && IsLive(t[k]) && last < t[k].timestamp < current
      :: Project(t[k].row, def.columns)
  }

  /** The tombstones of the requester's partition deleted strictly between the
      two sync points and not written again by this exchange, as primary-key
      columns: the deletions the requester is missing. */
  function MissedDeletions(t: Contents, def: TableDef, ev: seq<Value>, last: int, current: int, delta: Delta): set<Row> {
    set k | k in t && k.extra == ev && !Touched(def, delta, ev, k) && IsTombstone(t[k]) && last < DeletedAt(t[k]) < current
      :: Project(t[k].row, def.primary)
  }

  /** The modified reply is exactly what the requester is missing of live rows,
      judged against the table as it stood before the exchange. */
  lemma ModifiedReplyExact(t: Contents, def: TableDef, ctx: Row, last: int, current: int, delta: Delta)
    requires 0 <= last
    requires Sync(t, def, ctx, last, current, delta).Success?
    ensures Sync(t, def, ctx, last, current, delta).value.reply.modified
            == MissedChanges(t, def, ExtraValues(def, ctx), last, current, delta)
  {
    var ev := ExtraValues(def, ctx);
    var synced := Sync(t, def, ctx, last, current, delta).value;
    var written := synced.contents;
    var missed := MissedChanges(t, def, ev, last, current, delta);
    WrittenEntries(t, def, ctx, last, current, delta);
    assert synced.reply.modified == SelectChanged(written, def, last, current, ev);
    forall row | row in synced.reply.modified
      ensures row in missed
    {
      var k :| k in written && InWindow(k, written[k], last, current, ev)
               && row == RowFactory(def.columns, Fetch(written[k].row, def.columns));
      FactoryOfFetch(written[k].row, def.columns);
    }
    forall row | row in missed
      ensures row in synced.reply.modified
    {
      var k :| k in t && k.extra == ev && !Touched(def, delta, ev, k) && IsLive(t[k]) && last < t[k].timestamp < current
               && row == Project(t[k].row, def.columns);
      assert k in written;
      FactoryOfFetch(t[k].row, def.columns);
    }
  }

  /** Every key in the deleted reply is one the requester is missing. */
  lemma DeletedReplySound(t: Contents, def: TableDef, ctx: Row, last: int, current: int, delta: Delta)
    requires 0 <= last
    requires Sync(t, def, ctx, last, current, delta).Success?
    ensures Sync(t, def, ctx, last, current, delta).value.reply.deleted
            <= MissedDeletions(t, def, ExtraValues(def, ctx), last, current, delta)
  {
    var ev := ExtraValues(def, ctx);
    var synced := Sync(t, def, ctx, last, current, delta).value;
    var written := synced.contents;
    var missed := MissedDeletions(t, def, ev, last, current, delta);
    assert synced.reply.deleted == SelectDeletedKeys(written, def, -current, -last, ev);
    forall row | row in synced.reply.deleted
      ensures row in missed
    {
      var k :| k in written && InWindow(k, written[k], -current, -last, ev)
               && row == RowFactory(def.primary, Fetch(written[k].row, def.primary));
      WrittenEntries(t, def, ctx, last, current, delta);
      assert !Touched(def, delta, ev, k);
      assert k in t && written[k] == t[k];
      FactoryOfFetch(t[k].row, def.primary);
    }
  }

  /** Every deletion the requester is missing is in the deleted reply. */
  lemma DeletedReplyComplete(t: Contents, def: TableDef, ctx: Row, last: int, current: int, delta: Delta)
    requires 0 <= last
    requires Sync(t, def, ctx, last, current, delta).Success?
    ensures MissedDeletions(t, def, ExtraValues(def, ctx), last, current, delta)
            <= Sync(t, def, ctx, last, current, delta).value.reply.deleted
  {
    var ev := ExtraValues(def, ctx);
    var synced := Sync(t, def, ctx, last, current, delta).value;
    var written := synced.contents;
    var missed := MissedDeletions(t, def, ev, last, current, delta);
    WrittenEntries(t, def, ctx, last, current, delta);
    assert synced.reply.deleted == SelectDeletedKeys(written, def, -current, -last, ev);
    forall row | row in missed
      ensures row in synced.reply.deleted
    {
      var k :| k in t && k.extra == ev && !Touched(def, delta, ev, k) && IsTombstone(t[k]) && last < DeletedAt(t[k]) < current
               && row == Project(t[k].row, def.primary);
      assert k in written;
      FactoryOfFetch(t[k].row, def.primary);
    }
  }

  /** The deleted reply is exactly what the requester is missing of deletions,
      judged against the table as it stood before the exchange. */
  lemma DeletedReplyExact(t: Contents, def: TableDef, ctx: Row, last: int, current: int, delta: Delta)
    requires 0 <= last
    requires Sync(t, def, ctx, last, current, delta).Success?
    ensures Sync(t, def, ctx, last, current, delta).value.reply.deleted
            == MissedDeletions(t, def, ExtraValues(def, ctx), last, current, delta)
  {
    DeletedReplySound(t, def, ctx, last, current, delta);
    DeletedReplyComplete(t, def, ctx, last, current, delta);
  }

  /** Partition isolation, for writes: an exchange leaves every entry of
      another partition as it was and adds entries only to its own partition. */
  lemma PartitionIsolation(t: Contents, def: TableDef, ctx: Row, last: int, current: int, delta: Delta)
    requires Sync(t, def, ctx, last, current, delta).Success?
    ensures var written := Sync(t, def, ctx, last, current, delta).value.contents;
            && (forall k | k in t && k.extra != ExtraValues(def, ctx) :: k in written && written[k] == t[k])
            && (forall k | k in written && k !in t :: k.extra == ExtraValues(def, ctx))
  {
    WrittenEntries(t, def, ctx, last, current, delta);
  }

  /** Deletion runs after the upsert, so a key both modified and deleted in one
      exchange ends as a tombstone at the exchange's time, still holding the
      submitted row. */
  lemma DeleteAfterModify(t: Contents, def: TableDef, ctx: Row, last: int, current: int, delta: Delta, i: int)
    requires 0 < current
    requires Sync(t, def, ctx, last, current, delta).Success?
    requires 0 <= i < |delta.modified| && LastOccurrence(ModifiedKeys(def, delta.modified, ExtraValues(def, ctx)), i)
    requires RowKey(def, delta.modified[i], ExtraValues(def, ctx)) in DeletedKeys(def, delta.deleted, ExtraValues(def, ctx))
    ensures var e := Sync(t, def, ctx, last, current, delta).value.contents[RowKey(def, delta.modified[i], ExtraValues(def, ctx))];
            IsTombstone(e) && DeletedAt(e) == current && e.row == Stored(def, delta.modified[i])
  {
    var ev := ExtraValues(def, ctx);
    var k := RowKey(def, delta.modified[i], ev);
    var upserted := Upsert(t, def, delta.modified, current, ev);
    var written := MarkDeleted(upserted, DeletedKeys(def, delta.deleted, ev), current);
    assert Sync(t, def, ctx, last, current, delta).value.contents == written;
    UpsertLastWriteWins(t, def, delta.modified, current, ev, i);
    assert k in upserted && upserted[k] == Entry(Stored(def, delta.modified[i]), current);
    assert written[k] == Entry(Stored(def, delta.modified[i]), -current);
  }

  /** True iff every entry is stored under the primary-key values its own row holds. */
  predicate KeysMatchRows(t: Contents, def: TableDef) {
    forall k | k in t :: k.primary == Fetch(t[k].row, def.primary)
  }

  /** The upsert keeps every entry under the primary key of its own row: each
      written row is stored under the key read from its stored form. */
  lemma {:induction false} UpsertKeepsKeysMatched(t: Contents, def: TableDef, rows: seq<Row>, now: int, ev: seq<Value>)
    requires KeysMatchRows(t, def)
    ensures KeysMatchRows(Upsert(t, def, rows, now, ev), def)
    decreases |rows|
  {
    if |rows| > 0 {
      UpsertKeepsKeysMatched(t, def, rows[..|rows| - 1], now, ev);
    }
  }

  /** A successful exchange keeps every entry under the primary key of its own
      row: the upsert writes rows under their own keys and mark-deleted
      changes only timestamps. */
  lemma SyncKeepsKeysMatched(t: Contents, def: TableDef, ctx: Row, last: int, current: int, delta: Delta)
    requires KeysMatchRows(t, def)
    ensures Sync(t, def, ctx, last, current, delta).Success? ==>
              KeysMatchRows(Sync(t, def, ctx, last, current, delta).value.contents, def)
  {
    if Readable(def, ctx, delta) {
      var ev := ExtraValues(def, ctx);
      SyncWrites(t, def, ctx, last, current, delta);
      UpsertKeepsKeysMatched(t, def, delta.modified, current, ev);
    }
  }

  /** A successful exchange keeps the rows the upsert left: mark-deleted
      touches only timestamps. */
  lemma SyncWrites(t: Contents, def: TableDef, ctx: Row, last: int, current: int, delta: Delta)
    requires Readable(def, ctx, delta)
    ensures var written := Sync(t, def, ctx, last, current, delta).value.contents;
            var upserted := Upsert(t, def, delta.modified, current, ExtraValues(def, ctx));
            && written.Keys == upserted.Keys
            && forall k | k in written :: written[k].row == upserted[k].row
  {
  }
}

=== FILE: values.dfy ===
/** Rows as loosely-typed mappings from column names to scalar values, and the
    conversion of a positional query result into such a mapping. */
module Values {

  type Column = string

  /** A scalar column value. `Null` is what a stored row holds in a column that
      was never written. */
  datatype Value = Null | Int(i: int) | Text(s: string)

  type Row = map<Column, Value>

  /** The value `row` holds in column `c`. */
  function Lookup(row: Row, c: Column): Value {
    if c in row then row[c] else Null
  }

  /** True iff `row` has a value for every column of `cols`. */
  predicate HasColumns(row: Row, cols: seq<Column>) {
    forall i | 0 <= i < |cols| :: cols[i] in row
  }

  /** The positional tuple a query selecting `cols` returns for `row`. */
  function Fetch(row: Row, cols: seq<Column>): (r: seq<Value>)
    ensures |r| == |cols|
    ensures forall i | 0 <= i < |cols| :: r[i] == Lookup(row, cols[i])
  {
    seq(|cols|, i requires 0 <= i < |cols| => Lookup(row, cols[i]))
  }

  /** The restriction of `row` to exactly the columns `cols`. */
  function Project(row: Row, cols: seq<Column>): Row {
    map c | c in cols :: Lookup(row, c)
  }

  /** True iff position `i` of `s` holds the last occurrence of its element. */
  predicate LastOccurrence<T(==)>(s: seq<T>, i: int)
    requires 0 <= i < |s|
  {
    forall j | i < j < |s| :: s[j] != s[i]
  }

  /** Builds a row mapping from the column names of a cursor description and a
      positional result tuple, name by name from left to right. */
  function RowFactory(names: seq<Column>, tuple: seq<Value>): (r: Row)
    requires |names| == |tuple|
    ensures forall c :: c in r <==> c in names
    decreases |names|
  {
    if |names| == 0 then map[]
    else
      var n := |names| - 1;
      assert forall c :: c in names <==> c in names[..n] || c == names[n] by {
        assert names == names[..n] + [names[n]];
      }
      RowFactory(names[..n], tuple[..n])[names[n] := tuple[n]]
  }

  /** A name that occurs more than once takes the value of its last position,
      and every other name the value of its own position. */
  lemma {:induction false} RowFactoryLastWins(names: seq<Column>, tuple: seq<Value>, i: int)
    requires |names| == |tuple|
    requires 0 <= i < |names| && LastOccurrence(names, i)
    ensures RowFactory(names, tuple)[names[i]] == tuple[i]
    decreases |names|
  {
    var n := |names| - 1;
    if i < n {
      assert names[i] != names[n];
      assert LastOccurrence(names[..n], i);
      RowFactoryLastWins(names[..n], tuple[..n], i);
    }
  }

  /** Every element of a sequence has a last occurrence in it. */
  lemma {:induction false} LastOccurrenceOf<T>(s: seq<T>, x: T) returns (i: int)
    requires x in s
    ensures 0 <= i < |s| && s[i] == x && LastOccurrence(s, i)
    decreases |s|
  {
    var n := |s| - 1;
    if s[n] == x {
      i := n;
    } else {
      assert s == s[..n] + [s[n]];
      i := LastOccurrenceOf(s[..n], x);
      assert LastOccurrence(s[..n], i);
    }
  }

  /** A row read back through `RowFactory` from a query selecting `cols` is the
      stored row projected to exactly `cols`, whatever the order of `cols` and
      whether it repeats a name. */
  lemma FactoryOfFetch(row: Row, cols: seq<Column>)
    ensures RowFactory(cols, Fetch(row, cols)) == Project(row, cols)
  {
    var lhs := RowFactory(cols, Fetch(row, cols));
    var rhs := Project(row, cols);
    forall c | c in cols
      ensures lhs[c] == rhs[c]
    {
      var i := LastOccurrenceOf(cols, c);
      RowFactoryLastWins(cols, Fetch(row, cols), i);
    }
  }
}
